=== FILE: README.md ===
# Priority queue with stable references — a Dafny model

This project models the `PriorityQueue` class of `priorityQueue.js`. The class
keeps three structures in step:

- an array of nodes (`PriorityNode`: priority, value, reference) in
  non-increasing priority order, FIFO among equal priorities;
- `referencesIndexes`, mapping every reference `add` has issued to the node's
  current array index, or to `-1` once the node has left the queue;
- `prioritiesNum`, a histogram of the priorities present.

Every public call is a pure function of the current `State`. Each mutating
call (`add`, `next`, `changePriority`, `removeByRef`, `removeByPosition`)
returns a `Step`: the next state plus the returned value or the thrown error
tag. `clear` returns the next `State`. The queries (`front`, `at`,
`positionOf`, `forEach`, `length`, `totalProcessed`, `stats`) return only
their result, a `Result` where the call can throw, and leave the state
unchanged. The thrown
strings `'TypeError'`, `'RangeError'`, `'ReferenceError'` and
`'Empty priority queue'` become the tags `TypeError`, `RangeError`,
`ReferenceError` and `Empty`. A JavaScript argument is either `Num(n)` or
`NonNum`, which is what `typeof x === 'number'` can tell apart.

Modules, one per file:

- `Outcomes`: error tags, `Result`, `Option`, `Arg`.
- `Store`: the node array and its splices; the insertion-index scan.
- `Histogram`: `prioritiesNum` (the `Counts` map) and its increment and decrement.
- `References`: `referencesIndexes`, the index-rewrite loop, and the
  consistency between index and array.
- `PriorityQueue`: the state, its invariant `Valid`, and every public
  operation.
- `QueueProperties`: laws relating several calls, and every sequence of
  calls preserving the invariant.
- `Demo`: the usage script at the end of the source file, replayed step by
  step.

Where the method comments and the code disagree, the model follows the code:

- `at` returns `null` already at `position == length`.
- `forEach` passes the 0-based index as the "position".

Both are listed under Findings, together with the documented behaviour.

## Model

| member | source | states |
|---|---|---|
| Store.InsertAt | priorityQueue.js:107-109 | `splice(index, 0, node)`: the node lands at `index`; earlier nodes stay, later ones shift up by one |
| Store.RemoveAt | priorityQueue.js:87-90 | `splice(index, 1)`: earlier nodes stay, later ones shift down by one |
| Store.RemoveInsert | priorityQueue.js:107-109 | splicing out the node just spliced in restores the array |
| Store.InsertRemove | priorityQueue.js:87-90 | re-inserting a spliced-out node at its old index restores the array |
| Store.FindIndex | priorityQueue.js:124-131 | the insertion index: every earlier node has priority >= p, and the node at that index (if any) has priority < p |
| Store.ScanFrom | priorityQueue.js:125-130 | the scanning loop, resumed at i, keeps the same two facts |
| Store.FindIndexPastLowest | priorityQueue.js:124-131 | a priority no higher than the last one present is placed at the end |
| Store.InsertKeepsSorted | priorityQueue.js:136-137 | inserting at the scan's index keeps the array sorted and puts the node behind all its equals (FIFO) |
| Store.InsertionIndexUnique | priorityQueue.js:124-131 | the only index putting a node behind its equals and ahead of lower priorities is the scan's index |
| Store.RemoveKeepsOrder | priorityQueue.js:87-90 | a splice-out keeps the order and distinct references, and drops the removed reference |
| Store.InsertKeepsDistinct | priorityQueue.js:107-109 | inserting an unused reference keeps references distinct |
| Histogram.Increase | priorityQueue.js:59-65 | the count of p goes up by one; every other count is unchanged |
| Histogram.Decrease | priorityQueue.js:71-80 | a positive count of p goes down by one, a zero key is deleted, and every other count is unchanged |
| Histogram.CountInsert | priorityQueue.js:107-109 | inserting a node adds one to the count of its priority only |
| Histogram.CountRemove | priorityQueue.js:87-90 | removing a node takes one from the count of its priority only |
| Histogram.TalliesInsert | priorityQueue.js:154-160 | after `increasePriorityNums` and the insertion, the histogram counts the array exactly |
| Histogram.TalliesRemove | priorityQueue.js:71-80 | the removed node's priority is present, and after the decrement the histogram counts the array exactly |
| Histogram.TalliesEmpty | priorityQueue.js:409-416 | an empty array has an empty histogram |
| Histogram.TotalRemove | priorityQueue.js:444-451 | summing helper for the documented "amount of items" per priority: the sum of the counts does not depend on which key is taken first |
| Histogram.TotalIsLength | priorityQueue.js:444-454 | the counts of `stats` add up to the length |
| References.Reindex | priorityQueue.js:93-96 | the rewrite loop gives every node from index k on its own index and leaves other slots as they were |
| References.PlacedDistinct | priorityQueue.js:93-96 | an index that places every node forbids shared references |
| References.RemovedNotCarried | priorityQueue.js:269-272 | a reference marked -1 is carried by no node |
| References.DequeueReindex | priorityQueue.js:87-101 | after `dequeueElement`, index and array agree for every node; only the removed node's slot is stale, and -1 slots stay -1 |
| References.QueueReindex | priorityQueue.js:107-117 | after `queueElement`, index and array agree for every node, the inserted node included, and -1 slots stay -1 |
| References.Tombstone | priorityQueue.js:197 | writing -1 for the reference no node carries restores full agreement |
| PriorityQueue.Init | priorityQueue.js:38-54 | the new queue is empty, has processed nothing, and satisfies the invariant |
| PriorityQueue.DequeueElement | priorityQueue.js:87-101 | returns the node at `index`; the array loses exactly it; histogram and counter unchanged; every other slot is correct |
| PriorityQueue.QueueElement | priorityQueue.js:107-117 | the node is spliced in at `index`; every slot, its own included, is correct; histogram and counter unchanged |
| PriorityQueue.Evict | priorityQueue.js:191-197 | the removal shared by `next`, `removeByRef` and `removeByPosition` keeps the invariant and removes exactly that node |
| PriorityQueue.EvictKeepsValid | priorityQueue.js:191-197 | dequeue, decrement and -1 together restore the invariant |
| PriorityQueue.EvictRemoves | priorityQueue.js:191-197 | the array loses that node, its slot becomes -1 and its priority is counted once less; the counter, the issued references and every -1 slot are unchanged |
| PriorityQueue.Place | priorityQueue.js:157-163 | the scan, `queueElement` and the slot write leave a sorted array with the node behind its equals |
| PriorityQueue.PlaceSound | priorityQueue.js:160-163 | the slot write after `queueElement` stores the value the loop already wrote |
| PriorityQueue.Add | priorityQueue.js:143-167 | a non-number throws `TypeError` and changes nothing; otherwise the next reference is returned, the node lands behind its equals, and its priority is counted once more |
| PriorityQueue.AddKeepsValid | priorityQueue.js:143-167 | `add` keeps the invariant |
| PriorityQueue.Front | priorityQueue.js:174-179 | throws exactly on an empty queue; otherwise the value of a node no other node outranks |
| PriorityQueue.Next | priorityQueue.js:186-201 | throws on an empty queue; otherwise returns the front value, drops it, and shifts every other slot down by one |
| PriorityQueue.Length | priorityQueue.js:207-209 | the number of queued elements, equal to the sum of the counts `stats` reports |
| PriorityQueue.TotalProcessed | priorityQueue.js:215-217 | the number of `add` calls that ever issued a reference: the references issued so far are exactly 1..totalProcessed |
| PriorityQueue.At | priorityQueue.js:233-250 | `TypeError` exactly for non-numbers, `RangeError` exactly for positions <= 0, `null` exactly for position >= length, otherwise the node at position - 1 |
| PriorityQueue.PositionOf | priorityQueue.js:262-275 | `ReferenceError` exactly for references never issued, -1 exactly for ones no node carries, otherwise a position whose node carries the reference |
| PriorityQueue.Reprioritise | priorityQueue.js:303-327 | the live case of `changePriority` keeps the invariant and moves the node to a new index behind its equals under the new priority |
| PriorityQueue.ChangePriority | priorityQueue.js:288-328 | the reference test comes before the type test; -1 for a removed reference with nothing changed; otherwise the node is moved and its new position returned |
| PriorityQueue.ReprioritiseKeepsValid | priorityQueue.js:303-327 | the move keeps the invariant |
| PriorityQueue.ReprioritiseMoves | priorityQueue.js:303-327 | the other nodes keep their relative order, the moved node sits behind its equals under the new priority with its slot recording its new index, and one count moves from the old priority to the new one; counter, issued references and -1 slots are kept |
| PriorityQueue.ReprioritiseMovesNode | priorityQueue.js:306-318 | the other nodes keep their order and the moved node sits behind its equals |
| PriorityQueue.ReprioritiseMovesRecords | priorityQueue.js:306-324 | the slot records the new index, and one count moves from the old priority to the new one |
| PriorityQueue.MoveCounts | priorityQueue.js:309-324 | decrementing one priority and incrementing another moves exactly one count |
| PriorityQueue.InsertedAtFindIndex | priorityQueue.js:157-163 | the index recorded by `add` is the one `findIndexForElement` computes |
| PriorityQueue.MovedToFindIndex | priorityQueue.js:312-321 | the index recorded by `changePriority` is `findIndexForElement` on the array without the moved node |
| PriorityQueue.RemoveByRef | priorityQueue.js:339-365 | `ReferenceError` for references never issued, `false` for removed ones with nothing changed, otherwise `true` and exactly that node removed |
| PriorityQueue.RemoveByPosition | priorityQueue.js:377-403 | `TypeError` for non-numbers, `RangeError` for positions <= 0, `false` for position > length with nothing changed, otherwise `true` and the node at position - 1 removed |
| PriorityQueue.ClearLoop | priorityQueue.js:410-413 | the loop empties an exact histogram and marks every reference in the array -1, leaving other slots alone |
| PriorityQueue.TalliesEmptyIf | priorityQueue.js:409-416 | an exact histogram of an empty array is empty |
| PriorityQueue.TalliesDrop | priorityQueue.js:410-413 | one loop step keeps the histogram exact for the rest of the array |
| PriorityQueue.Clear | priorityQueue.js:409-416 | the array and histogram are emptied, every issued reference reads -1, the counter is kept, and the invariant holds |
| PriorityQueue.ClearSound | priorityQueue.js:409-416 | every key the loop touches was already issued, so the loop leaves no live slot |
| PriorityQueue.ForEachArgs | priorityQueue.js:434-439 | the callback sees every value in queue order, each with its 0-based index |
| PriorityQueue.ForEach | priorityQueue.js:427-440 | `TypeError` exactly when the callback is not a function, otherwise the pairs of `ForEachArgs` |
| PriorityQueue.Stats | priorityQueue.js:444-454 | for each priority present, how many nodes carry it; no zero counts; the counts add up to the length |
| QueueProperties.Apply | priorityQueue.js:143-416 | every mutating call, returning or throwing, keeps the invariant, never lowers the counter, and never lifts a -1 |
| QueueProperties.Run | priorityQueue.js:143-416 | the same holds for every sequence of calls |
| QueueProperties.RemovedStaysRemoved | priorityQueue.js:339-365 | after any later calls, a removed reference still gives -1 from `positionOf` and `changePriority` and `false` from `removeByRef` |
| QueueProperties.ReferenceDistinction | priorityQueue.js:252-275 | exactly the never-issued references throw `ReferenceError`; removed ones get -1 or `false` with nothing changed |
| QueueProperties.RemoveByRefTwice | priorityQueue.js:330-365 | `removeByRef` of one reference answers `true`, then `false`, then `false` |
| QueueProperties.FrontThenNext | priorityQueue.js:170-201 | `next` returns what `front` shows, the error included |
| QueueProperties.PositionRoundTrip | priorityQueue.js:233-275 | `at(positionOf(x))` returns x below the last position and `null` at the last |
| QueueProperties.AtRoundTrip | priorityQueue.js:233-275 | `positionOf` of the reference `at(p)` returns is p |
| QueueProperties.LastPositionAsymmetry | priorityQueue.js:240-242 | at the last position, `at` reads `null` while `positionOf` reports it and `removeByPosition` accepts it |
| QueueProperties.RemoveByPositionOfRef | priorityQueue.js:339-403 | for a live reference, `removeByPosition(positionOf(ref))` is the same call as `removeByRef(ref)`, state and answer alike |
| QueueProperties.ClearThenQueries | priorityQueue.js:409-416 | after `clear`, `front` and `next` throw, every issued reference reads -1 from `positionOf`, and `add` issues the next fresh reference |
| QueueProperties.AtIntended | priorityQueue.js:219-232 | `at` with the documented bound: `null` only past the length, and the same answers as `at` at every position other than the length |
| QueueProperties.AtIntendedRoundTrip | priorityQueue.js:219-275 | with the documented bound, `at` and `positionOf` are inverse on every live reference and every occupied position |
| QueueProperties.ForEachOffByOne | priorityQueue.js:434-439 | `forEach`'s position is one less than `positionOf`'s for the same element |
| QueueProperties.ForEachIntended | priorityQueue.js:420-421 | `forEach` with documented 1-based positions: same values in the same order |
| QueueProperties.ForEachIntendedPositions | priorityQueue.js:420-421 | every documented position agrees with `positionOf` and with the documented `at` |
| QueueProperties.AddThenPositionOf | priorityQueue.js:143-167 | the reference `add` returns exceeds every earlier one, and `positionOf` finds the new node with it |
| QueueProperties.AddInsertsAtFindIndex | priorityQueue.js:157-163 | `add` inserts at the first index whose priority is lower than the new one |
| QueueProperties.AddAtFront | priorityQueue.js:143-167 | an `add` above the front priority puts the node first |
| QueueProperties.AddAtBack | priorityQueue.js:143-167 | an `add` at or below the last priority puts the node last |
| QueueProperties.ChangePriorityInsertsAtFindIndex | priorityQueue.js:312-327 | `changePriority` re-inserts at `findIndexForElement` of the remaining array and returns that index + 1 |
| QueueProperties.ChangePriorityMoves | priorityQueue.js:288-328 | for a live node, `changePriority` returns a positive position and moves the node there |
| QueueProperties.ChangePriorityThenPositionOf | priorityQueue.js:288-328 | the position `changePriority` returns is what `positionOf` reports afterwards |
| QueueProperties.PositionAfterMove | priorityQueue.js:321-327 | after a move, `positionOf` finds the node at the returned position |
| QueueProperties.AddKeepsFifo | priorityQueue.js:136-137 | `add` keeps equal priorities in the order their references were issued |
| QueueProperties.InsertedKeepsFifo | priorityQueue.js:136-137 | a new, largest reference placed behind its equals keeps that order |
| QueueProperties.InsertKeepsFifo | priorityQueue.js:136-137 | the same at the level of the array |
| QueueProperties.RemoveKeepsFifo | priorityQueue.js:87-90 | a splice-out keeps that order |
| QueueProperties.RemovedKeepsFifo | priorityQueue.js:87-90 | so does every removal step |
| QueueProperties.NextKeepsFifo | priorityQueue.js:186-201 | `next` keeps that order |
| QueueProperties.RemoveByRefKeepsFifo | priorityQueue.js:339-365 | `removeByRef` keeps that order |
| QueueProperties.RemoveByPositionKeepsFifo | priorityQueue.js:377-403 | `removeByPosition` keeps that order |
| QueueProperties.ApplyKeepsFifo | priorityQueue.js:136-137 | every call except `changePriority` keeps that order |
| QueueProperties.RunKeepsFifo | priorityQueue.js:136-137 | so does every sequence of such calls |
| QueueProperties.FrontIsEarliestOfHighest | priorityQueue.js:136-137 | in that order, the front node has the highest priority and the smallest reference among its equals |
| Demo.AddFirst | priorityQueue.js:473-477 | on a new queue, `add(el1, 1)` returns 1 and the length becomes 1 |
| Demo.AddSecond | priorityQueue.js:479-480 | `add(el2, 2)` returns 2 and `front` is el2 |
| Demo.StatsAfterSecond | priorityQueue.js:481 | `stats[2]` is 1 |
| Demo.RaiseFirst | priorityQueue.js:483 | `changePriority(el1Ref, 3)` returns 1 |
| Demo.RaisedToFront | priorityQueue.js:483-484 | after that move, el1 is first and el2 second |
| Demo.RaiseFirstKeepsValid | priorityQueue.js:483 | that move keeps the invariant |
| Demo.NextFirst | priorityQueue.js:484-486 | `front` and `next()` give el1, and the length becomes 1 |
| Demo.AddFn | priorityQueue.js:488 | `add(fnEl, 7)` puts it first |
| Demo.AddObj1 | priorityQueue.js:489 | the first `add(objEl, …)` lands last |
| Demo.AddObj2 | priorityQueue.js:490 | the second lands last, behind the first |
| Demo.AddObj3 | priorityQueue.js:491 | the third lands last, behind the second |
| Demo.Lookups | priorityQueue.js:493-496 | `at(2)` is el2 with its reference, `at(17)` is `null`, `positionOf(objElRef3)` is 5 |
| Demo.RemoveSecondObj | priorityQueue.js:497 | `removeByRef(objElRef2)` is `true` |
| Demo.AfterRemoveSecondObj | priorityQueue.js:498-500 | `positionOf(objElRef3)` is 4, `totalProcessed` 6, `length` 4 |
| Demo.RemoveFourthTwice | priorityQueue.js:501-502 | `removeByPosition(4)` is `true`, then `false` |
| Demo.RaiseObj | priorityQueue.js:504-505 | `changePriority(objElRef1, 999)` is 1, `front` is objEl, and the queue is objEl, fnEl, el2 |
| Demo.RaisedObjToFront | priorityQueue.js:504-505 | after that move the queue is objEl (priority 999), fnEl, el2 |
| Demo.VisitAndClear | priorityQueue.js:507-513 | `forEach` visits object, function, string in that order, at positions 0, 1, 2 as written; after `clear`, the length is 0 and `totalProcessed` is 6 |

## Left out

- Numbers are mathematical integers. Floating-point priorities, `NaN`, infinities, and the string coercion of object keys are not modelled. The script's priority -12.123456789 is represented as -12; only its order relative to 7 and 2 matters.
- References and positions are integers. A non-integer such as 1.5, which the source turns into `undefined` or `NaN` lookups, is not modelled.
- `typeof` is reduced to `Num` versus `NonNum`, and the callback check of `forEach` to a boolean.
- ForEach: the callback is never called. Its effects, `bind` and `thisArg` belong to the caller. The model yields the `(value, position)` pairs it would receive.
- Stats: returns the histogram as a value. The source returns the internal object itself, so a caller could mutate the queue's bookkeeping through it. That aliasing is not modelled.
- The getters and setters of `PriorityNode` are plain field reads and record updates.
- `dequeueElement` does nothing for an index out of range, and `queueElement` does nothing for an index past the end. Every caller passes an index in range, so these branches are preconditions here.
- The demo's `console.assert` and `console.log` output is left out. Element values of mixed JavaScript types are strings in the demo.
- The `objEl.c` mutation in the demo is left out: values are immutable here, so `front.c` is stated as `front` returning objEl.
- The demo lemmas take each intermediate state as a parameter, with the facts the previous steps and the operations' contracts establish as preconditions. Apart from the first state, they are not chained by one expression.
- Demo.AddFirst, Demo.AddSecond, Demo.NextFirst, Demo.AddFn, Demo.AddObj1, Demo.AddObj2, Demo.AddObj3, Demo.RemoveSecondObj, Demo.RemoveFourthTwice: state the resulting array but not `Valid` of the resulting state. `Valid` follows from the general contracts of `Next`, `Add`, `RemoveByRef` and `RemoveByPosition`.

## Findings

| source | as written | input that shows it | evidently intended | confidence | as-written member | corrected member |
|---|---|---|---|---|---|---|
| priorityQueue.js:240-242 | `at` returns `null` when `position >= length`, so the last occupied position reads as empty | a queue with one element: `at(1)` is `null` while `positionOf` of its reference is 1 | `null` only when position > length, as the comment at line 229 says | high, not executed | QueueProperties.LastPositionAsymmetry | QueueProperties.AtIntendedRoundTrip |
| priorityQueue.js:434-439 | `forEach` passes the stored 0-based index as the position | a queue with one element: the callback receives position 0 while `positionOf` gives 1 | the 1-based position, as the comment at lines 420-421 says | medium, not executed | QueueProperties.ForEachOffByOne | QueueProperties.ForEachIntendedPositions |

=== FILE: demo.dfy ===
/** The usage script at the bottom of the queue's source file, replayed
    against the model one call at a time: each step starts from the state the
    previous step describes, and each of the script's checks follows from the
    operations' contracts. Every step also needs `Valid` of its starting
    state, which the previous call's own contract re-establishes. */
module Demo {
  import opened Outcomes
  import opened Store
  import opened Histogram
  import opened References
  import opened PriorityQueue
  import opened QueueProperties

  /** `pq.add(el1, 1)` on a new queue (`Init`, or any empty queue that has
      processed nothing) returns reference 1 and the length is 1. */
  lemma AddFirst(s0: State<string>, r: Step<string, int>)
    requires Valid(s0) && |s0.queue| == 0 && s0.processedElements == 0
    requires r == Add(s0, "el1", Num(1))
    ensures r.result == Ok(1) && r.after.processedElements == 1
    ensures |r.after.queue| == 1 && r.after.queue[0] == Node(1, "el1", 1) && Length(r.after) == 1
  {
    AddAtFront(s0, "el1", 1, r.after);
  }

  /** `pq.add(el2, 2)` puts the higher priority in front. */
  lemma AddSecond(s1: State<string>, s2: State<string>)
    requires Valid(s1) && s1.processedElements == 1 && s1.queue == [Node(1, "el1", 1)]
    requires s2 == Add(s1, "el2", Num(2)).after
    ensures Add(s1, "el2", Num(2)).result == Ok(2)
    ensures s2.processedElements == 2
    ensures |s2.queue| == 2 && s2.queue[0] == Node(2, "el2", 2) && s2.queue[1] == Node(1, "el1", 1)
    ensures Front(s2) == Ok("el2")
  {
    AddAtFront(s1, "el2", 2, s2);
  }

  /** With those two elements queued, `stats[2]` is 1. */
  lemma StatsAfterSecond(s2: State<string>)
    requires Valid(s2) && s2.queue == [Node(2, "el2", 2), Node(1, "el1", 1)]
    ensures CountOf(Stats(s2), 2) == 1
  {
    var tail := s2.queue[1..];
    assert tail == [Node(1, "el1", 1)] && tail[1..] == [];
    assert Count(tail, 2) == Count(tail[1..], 2) == 0;
    assert Count(s2.queue, 2) == 1 + Count(tail, 2);
  }

  /** `pq.changePriority(el1Ref, 3)` moves the first element to position 1,
      after which it is in front. */
  lemma RaiseFirst(s2: State<string>, r: Step<string, int>)
    requires Valid(s2)
    requires s2.queue == [Node(2, "el2", 2), Node(1, "el1", 1)]
    requires r == ChangePriority(s2, Num(1), Num(3))
    ensures r.result == Ok(1)
    ensures r.after.queue == [Node(3, "el1", 1), Node(2, "el2", 2)]
  {
    ChangePriorityMoves(s2, 1, 3, r);
    RaisedToFront(s2, r);
  }

  lemma RaisedToFront(s2: State<string>, r: Step<string, int>)
    requires s2.queue == [Node(2, "el2", 2), Node(1, "el1", 1)]
    requires r.result.Ok? && 0 < r.result.value && MovedTo(s2, r.after, 1, 3, r.result.value - 1)
    ensures r.result == Ok(1) && r.after.queue == [Node(3, "el1", 1), Node(2, "el2", 2)]
  {
    var k := r.result.value - 1;
    var rest := RemoveAt(s2.queue, 1);
    assert rest[0] == Node(2, "el2", 2);
    MovedToFindIndex(s2, r.after, 1, 3, k);
    assert RemoveAt(r.after.queue, 0)[0] == r.after.queue[1];
  }

  /** The move keeps the queue's invariant and its processed count. */
  lemma RaiseFirstKeepsValid(s2: State<string>, r: Step<string, int>)
    requires Valid(s2) && s2.processedElements == 2
    requires s2.queue == [Node(2, "el2", 2), Node(1, "el1", 1)]
    requires r == ChangePriority(s2, Num(1), Num(3))
    ensures Valid(r.after) && r.after.processedElements == 2
  {
    assert s2.queue[1].reference == 1;
  }

  /** `el1` is then in front, and `pq.next()` hands it out, leaving one element. */
  lemma NextFirst(s: State<string>, r: Step<string, string>)
    requires Valid(s) && s.processedElements == 2
    requires s.queue == [Node(3, "el1", 1), Node(2, "el2", 2)]
    requires r == Next(s)
    ensures Front(s) == Ok("el1")
    ensures r.result == Ok("el1")
    ensures r.after.processedElements == 2
    ensures r.after.queue == [Node(2, "el2", 2)] && Length(r.after) == 1
  {
  }

  /** The five elements after `fnEl` (priority 7) and three copies of `objEl`
      (priority -12; the script's non-integer priority is rounded here) are added. */
  ghost predicate FiveQueued(s: State<string>) {
    && Valid(s) && s.processedElements == 6
    && s.queue == [Node(7, "fn", 3), Node(2, "el2", 2), Node(-12, "obj", 4), Node(-12, "obj", 5), Node(-12, "obj", 6)]
  }

  lemma AddFn(s: State<string>, t: State<string>)
    requires Valid(s) && s.processedElements == 2 && s.queue == [Node(2, "el2", 2)]
    requires t == Add(s, "fn", Num(7)).after
    ensures t.processedElements == 3
    ensures |t.queue| == 2 && t.queue[0] == Node(7, "fn", 3) && t.queue[1] == Node(2, "el2", 2)
  {
    AddAtFront(s, "fn", 7, t);
  }

  lemma AddObj1(s: State<string>, t: State<string>)
    requires Valid(s) && s.processedElements == 3 && s.queue == [Node(7, "fn", 3), Node(2, "el2", 2)]
    requires t == Add(s, "obj", Num(-12)).after
    ensures t.processedElements == 4
    ensures t.queue == [Node(7, "fn", 3), Node(2, "el2", 2), Node(-12, "obj", 4)]
  {
    AddAtBack(s, "obj", -12, t);
  }

  lemma AddObj2(s: State<string>, t: State<string>)
    requires Valid(s) && s.processedElements == 4 && s.queue == [Node(7, "fn", 3), Node(2, "el2", 2), Node(-12, "obj", 4)]
    requires t == Add(s, "obj", Num(-12)).after
    ensures t.processedElements == 5
    ensures t.queue == [Node(7, "fn", 3), Node(2, "el2", 2), Node(-12, "obj", 4), Node(-12, "obj", 5)]
  {
    AddAtBack(s, "obj", -12, t);
  }

  lemma AddObj3(s: State<string>, t: State<string>)
    requires Valid(s) && s.processedElements == 5 && s.queue == [Node(7, "fn", 3), Node(2, "el2", 2), Node(-12, "obj", 4), Node(-12, "obj", 5)]
    requires t == Add(s, "obj", Num(-12)).after
    ensures t.processedElements == 6
    ensures t.queue == [Node(7, "fn", 3), Node(2, "el2", 2), Node(-12, "obj", 4), Node(-12, "obj", 5), Node(-12, "obj", 6)]
  {
    AddAtBack(s, "obj", -12, t);
  }

  /** `at(2)` is `el2` with its reference, `at(17)` is `null`, and the third
      `objEl` is at position 5. */
  lemma Lookups(s: State<string>)
    requires FiveQueued(s)
    ensures At(s, Num(2)) == Ok(Some(Entry(2, "el2")))
    ensures At(s, Num(17)) == Ok(None)
    ensures PositionOf(s, Num(6)) == Ok(5)
    ensures At(s, Num(5)) == Ok(None) && AtIntended(s, Num(5)) == Ok(Some(Entry(6, "obj")))
  {
    assert s.referencesIndexes[s.queue[4].reference] == Live(4);
  }

  /** `removeByRef` of the second `objEl` succeeds. */
  lemma RemoveSecondObj(s: State<string>, r: Step<string, bool>)
    requires FiveQueued(s) && r == RemoveByRef(s, Num(5))
    ensures r.result == Ok(true)
    ensures r.after.processedElements == 6
    ensures r.after.queue == [Node(7, "fn", 3), Node(2, "el2", 2), Node(-12, "obj", 4), Node(-12, "obj", 6)]
  {
    assert s.referencesIndexes[s.queue[3].reference] == Live(3);
    assert Carries(s.queue, 5) by { assert s.queue[3].reference == 5; }
  }

  /** The third `objEl` has moved to position 4; four elements remain and
      six were processed. */
  lemma AfterRemoveSecondObj(s: State<string>)
    requires Valid(s) && s.processedElements == 6
    requires s.queue == [Node(7, "fn", 3), Node(2, "el2", 2), Node(-12, "obj", 4), Node(-12, "obj", 6)]
    ensures PositionOf(s, Num(6)) == Ok(4)
    ensures TotalProcessed(s) == 6 && Length(s) == 4
  {
    assert s.referencesIndexes[s.queue[3].reference] == Live(3);
  }

  /** `removeByPosition(4)` succeeds once; a second call finds only three
      elements and returns `false`. */
  lemma RemoveFourthTwice(s: State<string>, r: Step<string, bool>)
    requires Valid(s) && s.processedElements == 6
    requires s.queue == [Node(7, "fn", 3), Node(2, "el2", 2), Node(-12, "obj", 4), Node(-12, "obj", 6)]
    requires r == RemoveByPosition(s, Num(4))
    ensures r.result == Ok(true)
    ensures r.after.queue == [Node(7, "fn", 3), Node(2, "el2", 2), Node(-12, "obj", 4)]
    ensures RemoveByPosition(r.after, Num(4)) == Step(r.after, Ok(false))
  {
  }

  /** `changePriority` of the first `objEl` to 999 returns position 1 and it
      is in front. */
  lemma RaiseObj(s: State<string>, r: Step<string, int>)
    requires Valid(s) && s.processedElements == 6
    requires s.queue == [Node(7, "fn", 3), Node(2, "el2", 2), Node(-12, "obj", 4)]
    requires r == ChangePriority(s, Num(4), Num(999))
    ensures r.result == Ok(1) && Front(r.after) == Ok("obj")
    ensures Valid(r.after) && r.after.processedElements == 6
    ensures r.after.queue == [Node(999, "obj", 4), Node(7, "fn", 3), Node(2, "el2", 2)]
  {
    ChangePriorityMoves(s, 2, 999, r);
    RaisedObjToFront(s, r);
  }

  lemma RaisedObjToFront(s: State<string>, r: Step<string, int>)
    requires s.queue == [Node(7, "fn", 3), Node(2, "el2", 2), Node(-12, "obj", 4)]
    requires r.result.Ok? && 0 < r.result.value && MovedTo(s, r.after, 2, 999, r.result.value - 1)
    ensures r.result == Ok(1)
    ensures r.after.queue == [Node(999, "obj", 4), Node(7, "fn", 3), Node(2, "el2", 2)]
  {
    var k := r.result.value - 1;
    var rest := RemoveAt(s.queue, 2);
    assert rest[0] == Node(7, "fn", 3) && rest[1] == Node(2, "el2", 2);
    MovedToFindIndex(s, r.after, 2, 999, k);
    assert RemoveAt(r.after.queue, 0) == rest;
    assert r.after.queue[1] == rest[0] && r.after.queue[2] == rest[1];
  }

  /** `forEach` then visits the object, the function and the string, in that
      order, at the 0-based positions 0, 1 and 2; `clear` empties the queue
      but keeps the processed count. */
  lemma VisitAndClear(s: State<string>)
    requires Valid(s) && s.processedElements == 6
    requires s.queue == [Node(999, "obj", 4), Node(7, "fn", 3), Node(2, "el2", 2)]
    ensures ForEach(s, true) == Ok([("obj", 0), ("fn", 1), ("el2", 2)])
    ensures Length(Clear(s)) == 0 && TotalProcessed(Clear(s)) == 6
  {
    var r := ForEach(s, true).value;
    assert |r| == 3 && r[0] == ("obj", 0) && r[1] == ("fn", 1) && r[2] == ("el2", 2);
    assert r == [("obj", 0), ("fn", 1), ("el2", 2)];
  }
}

=== FILE: histogram.dfy ===
/** The priority histogram `prioritiesNum`: for every priority present in
    the store, how many nodes carry it. */
module Histogram {
  import opened Store

  type Counts = map<int, nat>

  /** Number of nodes of `q` whose priority is `p`. */
  ghost function Count<V>(q: seq<Node<V>>, p: int): nat {
    if |q| == 0 then 0 else (if q[0].priority == p then 1 else 0) + Count(q[1..], p)
  }

  /** The count a histogram records for `p`; a missing key reads as 0. */
  function CountOf(h: Counts, p: int): nat {
    if p in h then h[p] else 0
  }

  /** No key is present with count 0. */
  ghost predicate NoZeros(h: Counts) {
    forall p :: p in h ==> h[p] > 0
  }

  /** `h` is exactly the multiset of priorities of `q`, with no zero keys. */
  ghost predicate Tallies<V>(h: Counts, q: seq<Node<V>>) {
    NoZeros(h) && forall p :: CountOf(h, p) == Count(q, p)
  }

  /** `increasePriorityNums`: create the key with 1, or add one. */
  function Increase(h: Counts, p: int): (r: Counts)
    ensures forall x :: CountOf(r, x) == CountOf(h, x) + (if x == p then 1 else 0)
    ensures NoZeros(h) ==> NoZeros(r)
  {
    if p in h then h[p := h[p] + 1] else h[p := 1]
  }

  /** `decreasePriorityNums`: subtract one from a positive count, then delete
      the key if its count is not positive. A missing key is left missing. */
  function Decrease(h: Counts, p: int): (r: Counts)
    ensures forall x :: CountOf(r, x) == if x == p && CountOf(h, p) > 0 then CountOf(h, p) - 1 else CountOf(h, x)
    ensures p !in r || r[p] > 0
    ensures NoZeros(h) ==> NoZeros(r)
  {
    var h1 := if p in h && h[p] != 0 then h[p := h[p] - 1] else h;
    if p in h1 && h1[p] <= 0 then h1 - {p} else h1
  }

  lemma {:induction false} CountConcat<V>(a: seq<Node<V>>, b: seq<Node<V>>, p: int)
    ensures Count(a + b, p) == Count(a, p) + Count(b, p)
  {
    if |a| == 0 {
      assert a + b == b;
    } else {
      assert (a + b)[1..] == a[1..] + b;
      CountConcat(a[1..], b, p);
    }
  }

  /** Inserting a node adds one to the count of its priority and nothing else. */
  lemma CountInsert<V>(q: seq<Node<V>>, k: nat, n: Node<V>, p: int)
    requires k <= |q|
    ensures Count(InsertAt(q, k, n), p) == Count(q, p) + (if n.priority == p then 1 else 0)
  {
    assert InsertAt(q, k, n) == q[..k] + ([n] + q[k..]);
    assert q == q[..k] + q[k..];
    CountConcat(q[..k], [n] + q[k..], p);
    CountConcat([n], q[k..], p);
    CountConcat(q[..k], q[k..], p);
  }

  /** Removing a node takes one from the count of its priority and nothing else. */
  lemma CountRemove<V>(q: seq<Node<V>>, k: nat, p: int)
    requires k < |q|
    ensures Count(RemoveAt(q, k), p) + (if q[k].priority == p then 1 else 0) == Count(q, p)
  {
    assert q == q[..k] + ([q[k]] + q[k + 1..]);
    assert RemoveAt(q, k) == q[..k] + q[k + 1..];
    CountConcat(q[..k], [q[k]] + q[k + 1..], p);
    CountConcat([q[k]], q[k + 1..], p);
    CountConcat(q[..k], q[k + 1..], p);
  }

  /** `add` and the re-insertion half of `changePriority` keep the histogram exact. */
  lemma TalliesInsert<V>(h: Counts, q: seq<Node<V>>, k: nat, n: Node<V>)
    requires k <= |q| && Tallies(h, q)
    ensures Tallies(Increase(h, n.priority), InsertAt(q, k, n))
  {
    forall p
      ensures CountOf(Increase(h, n.priority), p) == Count(InsertAt(q, k, n), p)
    {
      CountInsert(q, k, n, p);
    }
  }

  /** Every removal keeps the histogram exact: the removed node's priority is
      present, so it is decremented exactly once. */
  lemma TalliesRemove<V>(h: Counts, q: seq<Node<V>>, k: nat)
    requires k < |q| && Tallies(h, q)
    ensures CountOf(h, q[k].priority) > 0
    ensures Tallies(Decrease(h, q[k].priority), RemoveAt(q, k))
  {
    CountRemove(q, k, q[k].priority);
    forall p
      ensures CountOf(Decrease(h, q[k].priority), p) == Count(RemoveAt(q, k), p)
    {
      CountRemove(q, k, p);
    }
  }

  /** An empty store has an empty histogram. */
  lemma TalliesEmpty<V>(h: Counts, q: seq<Node<V>>)
    requires Tallies(h, q) && |q| == 0
    ensures h == map[]
  {
    forall p
      ensures p !in h
    {
      assert CountOf(h, p) == Count(q, p);
    }
    assert h.Keys == {};
  }

  /** A histogram with a positive number of keys has a key. */
  lemma HasKey(h: Counts)
    ensures |h| > 0 ==> exists p :: p in h
  {
    if forall p :: p !in h {
      assert h.Keys == {};
    }
  }

  /** Some key of a non-empty histogram. */
  ghost function Pick(h: Counts): int
    requires |h| > 0
  {
    HasKey(h);
    var p :| p in h; p
  }

  /** Sum of all counts in the histogram. */
  ghost function Total(h: Counts): nat
    decreases |h.Keys|
  {
    if |h| == 0 then 0
    else
      var p := Pick(h);
      assert (h - {p}).Keys == h.Keys - {p};
      h[p] + Total(h - {p})
  }

  /** The sum does not depend on which key is taken out first. */
  lemma {:induction false} TotalRemove(h: Counts, p: int)
    requires p in h
    ensures Total(h) == h[p] + Total(h - {p})
    decreases |h.Keys|
  {
    var x := Pick(h);
    if x != p {
      assert (h - {x}).Keys == h.Keys - {x};
      assert (h - {p}).Keys == h.Keys - {p};
      assert h - {x} - {p} == h - {p} - {x};
      TotalRemove(h - {x}, p);
      TotalRemove(h - {p}, x);
    }
  }

  /** The counts of `stats` add up to the length of the store. */
  lemma {:induction false} TotalIsLength<V>(h: Counts, q: seq<Node<V>>)
    requires Tallies(h, q)
    ensures Total(h) == |q|
    decreases |q|
  {
    if |q| == 0 {
      TalliesEmpty(h, q);
    } else {
      var p := q[0].priority;
      TalliesRemove(h, q, 0);
      assert RemoveAt(q, 0) == q[1..];
      var h' := Decrease(h, p);
      TotalIsLength(h', q[1..]);
      TotalRemove(h, p);
      if h[p] == 1 {
        assert h' == h - {p};
      } else {
        assert h' == h[p := h[p] - 1];
        assert h' - {p} == h - {p};
        TotalRemove(h', p);
      }
    }
  }
}

=== FILE: outcomes.dfy ===
/** Error tags, result wrappers and dynamically typed arguments shared by the queue model. */
module Outcomes {

  /** The four tags the queue throws. `Empty` stands for the 'Empty priority queue' string. */
  datatype Error = TypeError | RangeError | ReferenceError | Empty

  /** An operation either returns a value or throws one of the error tags. */
  datatype Result<+T> = Ok(value: T) | Err(error: Error)

  /** A nullable return value; `None` stands for JavaScript's `null`. */
  datatype Option<+T> = None | Some(value: T)

  /** A caller-supplied argument as seen by a `typeof x === 'number'` test:
      either an integral number or something that is not a number at all. */
  datatype Arg = Num(n: int) | NonNum
}

=== FILE: priority_queue.dfy ===
/** The `PriorityQueue` class: an ordered store, a reference index and a
    priority histogram kept in step by every operation. Each operation is a
    pure function from the current state to the next state and the value it
    returns or the error tag it throws. */
module PriorityQueue {
  import opened Outcomes
  import opened Store
  import opened Histogram
  import opened References

  /** The four fields of the class. */
  datatype State<V> = State(
    queue: seq<Node<V>>,
    prioritiesNum: Counts,
    referencesIndexes: Index,
    processedElements: nat)

  /** The `{ref, value}` object `at` returns for an occupied position. */
  datatype Entry<V> = Entry(ref: int, value: V)

  /** The state after a call together with what the call returned or threw. */
  datatype Step<V, T> = Step(after: State<V>, result: Result<T>)

  /** The three structures agree: the store is sorted, the histogram counts
      its priorities, exactly the references 1..processedElements are indexed,
      and index and store agree both ways for every live reference. */
  ghost predicate Valid<V>(s: State<V>) {
    && Sorted(s.queue)
    && Tallies(s.prioritiesNum, s.queue)
    && (forall x :: x in s.referencesIndexes <==> 0 < x <= s.processedElements)
    && Consistent(s.queue, s.referencesIndexes)
  }

  /** The freshly constructed queue. */
  function Init<V>(): (s: State<V>)
    ensures Valid(s) && |s.queue| == 0 && s.processedElements == 0
  {
    State([], map[], map[], 0)
  }

  /** The reference test of `positionOf`, `changePriority` and `removeByRef`:
      a number in 1..processedElements. Anything else was never issued. */
  predicate Issued<V>(s: State<V>, ref: Arg) {
    ref.Num? && !(ref.n > s.processedElements || ref.n <= 0)
  }

  /** `t` is `s` with `n` spliced in at the index its slot now records, and
      that index puts it behind every node of equal priority. */
  ghost predicate InsertedAt<V>(s: State<V>, t: State<V>, n: Node<V>) {
    && n.reference in t.referencesIndexes && t.referencesIndexes[n.reference].Live?
    && var k := t.referencesIndexes[n.reference].index;
       && k <= |s.queue|
       && t.queue == InsertAt(s.queue, k, n)
       && AfterItsEquals(t.queue, k)
  }

  /** `t` is `s` with the node at index `i` removed: it is spliced out of the
      store, its reference is tombstoned, its priority is counted once less,
      and nothing else changes. */
  ghost predicate RemovedAt<V>(s: State<V>, t: State<V>, i: nat) {
    && i < |s.queue|
    && t.queue == RemoveAt(s.queue, i)
    && t.processedElements == s.processedElements
    && t.referencesIndexes.Keys == s.referencesIndexes.Keys
    && s.queue[i].reference in t.referencesIndexes
    && t.referencesIndexes[s.queue[i].reference] == Removed
    && (forall p :: CountOf(t.prioritiesNum, p) + (if p == s.queue[i].priority then 1 else 0) == CountOf(s.prioritiesNum, p))
    && TombstonesKept(s.referencesIndexes, t.referencesIndexes)
  }

  /** `dequeueElement(index)`: splice out the node at `index` and rewrite the
      slot of every node that moved. Only the removed node's slot is stale. */
  function DequeueElement<V>(s: State<V>, index: nat): (r: (State<V>, Node<V>))
    requires index < |s.queue| && Consistent(s.queue, s.referencesIndexes)
    ensures r.1 == s.queue[index]
    ensures r.0.queue == RemoveAt(s.queue, index)
    ensures r.0.prioritiesNum == s.prioritiesNum && r.0.processedElements == s.processedElements
    ensures r.0.referencesIndexes.Keys == s.referencesIndexes.Keys
    ensures ConsistentBut(r.0.queue, r.0.referencesIndexes, r.1.reference)
    ensures !Carries(r.0.queue, r.1.reference)
    ensures TombstonesKept(s.referencesIndexes, r.0.referencesIndexes)
  {
    DequeueReindex(s.queue, s.referencesIndexes, index);
    var q := RemoveAt(s.queue, index);
    (s.(queue := q, referencesIndexes := Reindex(q, s.referencesIndexes, index)), s.queue[index])
  }

  /** `queueElement(index, node)`: splice `node` in at `index` and rewrite the
      slot of every node from `index` on, the new node's included. */
  function QueueElement<V>(s: State<V>, index: nat, node: Node<V>): (t: State<V>)
    requires index <= |s.queue|
    requires ConsistentBut(s.queue, s.referencesIndexes, node.reference) && !Carries(s.queue, node.reference)
    ensures t.queue == InsertAt(s.queue, index, node)
    ensures t.prioritiesNum == s.prioritiesNum && t.processedElements == s.processedElements
    ensures t.referencesIndexes.Keys == s.referencesIndexes.Keys + {node.reference}
    ensures Consistent(t.queue, t.referencesIndexes)
    ensures forall x :: x != node.reference && x in s.referencesIndexes && s.referencesIndexes[x] == Removed ==>
                        t.referencesIndexes[x] == Removed
  {
    QueueReindex(s.queue, s.referencesIndexes, index, node);
    var q := InsertAt(s.queue, index, node);
    s.(queue := q, referencesIndexes := Reindex(q, s.referencesIndexes, index))
  }

  /** The removal shared by `next`, `removeByRef` and `removeByPosition`:
      dequeue, count the priority once less, tombstone the reference. */
  function Evict<V>(s: State<V>, i: nat): (t: State<V>)
    requires Valid(s) && i < |s.queue|
    ensures Valid(t) && RemovedAt(s, t, i)
  {
    var (s1, node) := DequeueElement(s, i);
    var t := s1.(prioritiesNum := Decrease(s1.prioritiesNum, node.priority),
                 referencesIndexes := s1.referencesIndexes[node.reference := Removed]);
    EvictKeepsValid(s, i, s1, t);
    EvictRemoves(s, i, s1, t);
    t
  }

  /** What `dequeueElement` leaves behind, as `Evict` uses it. */
  ghost predicate Dequeued<V>(s: State<V>, i: nat, s1: State<V>) {
    && i < |s.queue|
    && s1.queue == RemoveAt(s.queue, i)
    && s1.prioritiesNum == s.prioritiesNum && s1.processedElements == s.processedElements
    && s1.referencesIndexes.Keys == s.referencesIndexes.Keys
    && ConsistentBut(s1.queue, s1.referencesIndexes, s.queue[i].reference)
    && !Carries(s1.queue, s.queue[i].reference)
    && TombstonesKept(s.referencesIndexes, s1.referencesIndexes)
  }

  /** The removal shared by `next`, `removeByRef` and `removeByPosition`, invariant half: the three steps restore `Valid`. */
  lemma EvictKeepsValid<V>(s: State<V>, i: nat, s1: State<V>, t: State<V>)
    requires Valid(s) && Dequeued(s, i, s1)
    requires t == s1.(prioritiesNum := Decrease(s1.prioritiesNum, s.queue[i].priority),
                      referencesIndexes := s1.referencesIndexes[s.queue[i].reference := Removed])
    ensures Valid(t)
  {
    RemoveKeepsOrder(s.queue, i);
    TalliesRemove(s.prioritiesNum, s.queue, i);
    Tombstone(s1.queue, s1.referencesIndexes, s.queue[i].reference);
    assert s.queue[i].reference in s.referencesIndexes;
  }

  /** The same removal, effect half: exactly that node leaves and its slot becomes -1. */
  lemma EvictRemoves<V>(s: State<V>, i: nat, s1: State<V>, t: State<V>)
    requires Valid(s) && Dequeued(s, i, s1)
    requires t == s1.(prioritiesNum := Decrease(s1.prioritiesNum, s.queue[i].priority),
                      referencesIndexes := s1.referencesIndexes[s.queue[i].reference := Removed])
    ensures RemovedAt(s, t, i)
  {
    TalliesRemove(s.prioritiesNum, s.queue, i);
    assert s.queue[i].reference in s.referencesIndexes;
  }

  /** The common tail of `add` and `changePriority`: find the insertion
      index for the node's priority, queue the node there and record its slot. */
  function Place<V>(s: State<V>, node: Node<V>): (t: State<V>)
    requires Sorted(s.queue)
    requires ConsistentBut(s.queue, s.referencesIndexes, node.reference) && !Carries(s.queue, node.reference)
    ensures Sorted(t.queue) && Consistent(t.queue, t.referencesIndexes)
    ensures InsertedAt(s, t, node)
    ensures t.prioritiesNum == s.prioritiesNum && t.processedElements == s.processedElements
    ensures t.referencesIndexes.Keys == s.referencesIndexes.Keys + {node.reference}
    ensures forall x :: x != node.reference && x in s.referencesIndexes && s.referencesIndexes[x] == Removed ==>
                        t.referencesIndexes[x] == Removed
  {
    var k := FindIndex(s.queue, node.priority);
    var s1 := QueueElement(s, k, node);
    var t := s1.(referencesIndexes := s1.referencesIndexes[node.reference := Live(k)]);
    PlaceSound(s, node, k, s1, t);
    t
  }

  /** Recording the slot after `queueElement` rewrites it with the value it
      already holds, so `Place` inherits every fact `QueueElement` states. */
  lemma PlaceSound<V>(s: State<V>, node: Node<V>, k: nat, s1: State<V>, t: State<V>)
    requires Sorted(s.queue) && k == FindIndex(s.queue, node.priority)
    requires s1.queue == InsertAt(s.queue, k, node) && Consistent(s1.queue, s1.referencesIndexes)
    requires t == s1.(referencesIndexes := s1.referencesIndexes[node.reference := Live(k)])
    ensures t == s1
    ensures Sorted(t.queue) && InsertedAt(s, t, node)
  {
    InsertKeepsSorted(s.queue, k, node);
    assert s1.queue[k] == node;
    assert t.referencesIndexes == s1.referencesIndexes;
  }

  /** `add(element, priority)`. A non-number priority throws `TypeError` and
      changes nothing. Otherwise the next reference is issued and returned,
      and the new node lands behind every node of equal or higher priority. */
  function Add<V>(s: State<V>, element: V, priority: Arg): (r: Step<V, int>)
    requires Valid(s)
    ensures priority.NonNum? ==> r == Step(s, Err(TypeError))
    ensures priority.Num? ==>
              && r.result == Ok(s.processedElements + 1)
              && r.after.processedElements == s.processedElements + 1
              && Valid(r.after)
              && InsertedAt(s, r.after, Node(priority.n, element, s.processedElements + 1))
              && (forall p :: CountOf(r.after.prioritiesNum, p) == CountOf(s.prioritiesNum, p) + (if p == priority.n then 1 else 0))
              && TombstonesKept(s.referencesIndexes, r.after.referencesIndexes)
  {
    if priority.NonNum? then Step(s, Err(TypeError))
    else
      var ref := s.processedElements + 1;
      var node := Node(priority.n, element, ref);
      var s1 := s.(processedElements := ref, prioritiesNum := Increase(s.prioritiesNum, priority.n));
      assert !Carries(s.queue, ref);
      var t := Place(s1, node);
      AddKeepsValid(s, s1, node, t);
      Step(t, Ok(ref))
  }

  /** `add`, invariant half: the new node's bookkeeping keeps `Valid`. */
  lemma AddKeepsValid<V>(s: State<V>, s1: State<V>, node: Node<V>, t: State<V>)
    requires Valid(s) && node.reference == s.processedElements + 1
    requires s1 == s.(processedElements := node.reference, prioritiesNum := Increase(s.prioritiesNum, node.priority))
    requires !Carries(s.queue, node.reference) && t == Place(s1, node)
    ensures Valid(t)
  {
    var k := t.referencesIndexes[node.reference].index;
    TalliesInsert(s.prioritiesNum, s.queue, k, node);
  }

  /** The `front` getter: throws on an empty queue, otherwise returns the
      value at index 0, which has the highest priority present. */
  function Front<V>(s: State<V>): (r: Result<V>)
    requires Valid(s)
    ensures |s.queue| == 0 <==> r == Err(Empty)
    ensures r.Ok? ==> r.value == s.queue[0].value
    ensures r.Ok? ==> forall i :: 0 <= i < |s.queue| ==> s.queue[i].priority <= s.queue[0].priority
  {
    if |s.queue| == 0 then Err(Empty) else Ok(s.queue[0].value)
  }

  /** `next()`: throws on an empty queue; otherwise removes the node at index
      0, returns its value, and shifts every other node's index down by one. */
  function Next<V>(s: State<V>): (r: Step<V, V>)
    requires Valid(s)
    ensures |s.queue| == 0 ==> r == Step(s, Err(Empty))
    ensures |s.queue| > 0 ==>
              && r.result == Ok(s.queue[0].value)
              && Valid(r.after)
              && RemovedAt(s, r.after, 0)
              && r.after.queue == s.queue[1..]
              && (forall i :: 1 <= i < |s.queue| ==> r.after.referencesIndexes[s.queue[i].reference] == Live(i - 1))
  {
    if |s.queue| == 0 then Step(s, Err(Empty))
    else Step(Evict(s, 0), Ok(s.queue[0].value))
  }

  /** The `length` getter: the number of queued elements, which is also the
      sum of the counts `stats` reports. */
  function Length<V>(s: State<V>): (n: nat)
    ensures Valid(s) ==> n == Total(s.prioritiesNum)
  {
    assert Valid(s) ==> Total(s.prioritiesNum) == |s.queue| by {
      if Valid(s) {
        TotalIsLength(s.prioritiesNum, s.queue);
      }
    }
    |s.queue|
  }

  /** The `totalProcessed` getter: every `add` ever made, so the references
      issued so far are exactly 1..n. */
  function TotalProcessed<V>(s: State<V>): (n: nat)
    ensures Valid(s) ==> forall x :: x in s.referencesIndexes <==> 0 < x <= n
  {
    s.processedElements
  }

  /** `at(position)`: `TypeError` for a non-number, `RangeError` for a
      position <= 0, `null` when `position >= length` (so the last occupied
      position also reads as `null`), otherwise the node at `position - 1`. */
  function At<V>(s: State<V>, position: Arg): (r: Result<Option<Entry<V>>>)
    ensures position.NonNum? <==> r == Err(TypeError)
    ensures position.Num? && position.n <= 0 <==> r == Err(RangeError)
    ensures r == Ok(None) <==> position.Num? && position.n > 0 && position.n >= |s.queue|
    ensures r.Ok? && r.value.Some? ==>
              0 < position.n < |s.queue| && r.value.value == Entry(s.queue[position.n - 1].reference, s.queue[position.n - 1].value)
  {
    if position.NonNum? then Err(TypeError)
    else if position.n <= 0 then Err(RangeError)
    else if position.n >= |s.queue| then Ok(None)
    else Ok(Some(Entry(s.queue[position.n - 1].reference, s.queue[position.n - 1].value)))
  }

  /** `positionOf(ref)`: `ReferenceError` for a reference never issued, `-1`
      for one whose node has left the store, otherwise the 1-based position
      of the node that carries it. */
  function PositionOf<V>(s: State<V>, elementRef: Arg): (r: Result<int>)
    requires Valid(s)
    ensures r == Err(ReferenceError) <==> !Issued(s, elementRef)
    ensures Issued(s, elementRef) ==> (r == Ok(-1) <==> !Carries(s.queue, elementRef.n))
    ensures r.Ok? && r.value != -1 ==> 0 < r.value <= |s.queue| && s.queue[r.value - 1].reference == elementRef.n
  {
    if !Issued(s, elementRef) then Err(ReferenceError)
    else match s.referencesIndexes[elementRef.n]
      case Removed => Ok(-1)
      case Live(i) => Ok(i + 1)
  }

  /** `t` is `s` with the node at index `i` moved to index `k` under the new
      priority `p`: the other nodes keep their order, the node sits behind
      every node of equal priority, its slot records `k`, and the histogram
      moves one count from the old priority to `p`. */
  ghost predicate MovedTo<V>(s: State<V>, t: State<V>, i: nat, p: int, k: nat) {
    && i < |s.queue| && k < |t.queue|
    && t.queue[k] == s.queue[i].(priority := p)
    && RemoveAt(t.queue, k) == RemoveAt(s.queue, i)
    && AfterItsEquals(t.queue, k)
    && s.queue[i].reference in t.referencesIndexes
    && t.referencesIndexes[s.queue[i].reference] == Live(k)
    && t.processedElements == s.processedElements
    && t.referencesIndexes.Keys == s.referencesIndexes.Keys
    && (forall x :: CountOf(t.prioritiesNum, x) + (if x == s.queue[i].priority then 1 else 0)
                 == CountOf(s.prioritiesNum, x) + (if x == p then 1 else 0))
    && TombstonesKept(s.referencesIndexes, t.referencesIndexes)
  }

  /** The live case of `changePriority`: dequeue the node at `i`, count its
      old priority once less, re-queue it under `p` at `findIndexForElement`,
      record its slot, count `p` once more, and return its new position. */
  function Reprioritise<V>(s: State<V>, i: nat, p: int): (r: Step<V, int>)
    requires Valid(s) && i < |s.queue|
    ensures Valid(r.after) && r.result.Ok? && 0 < r.result.value
    ensures MovedTo(s, r.after, i, p, r.result.value - 1)
  {
    var (s1, node) := DequeueElement(s, i);
    var s2 := s1.(prioritiesNum := Decrease(s1.prioritiesNum, node.priority));
    var moved := node.(priority := p);
    RemoveKeepsOrder(s.queue, i);
    var s3 := Place(s2, moved);
    var t := s3.(prioritiesNum := Increase(s3.prioritiesNum, p));
    assert ReprioritiseSteps(s, i, s2, moved, t);
    ReprioritiseKeepsValid(s, i, s2, moved, t);
    ReprioritiseMoves(s, i, s2, moved, t);
    Step(t, Ok(t.referencesIndexes[node.reference].index + 1))
  }

  /** `changePriority(ref, newPriority)`: the reference test comes first, then
      the type test; a removed reference yields `-1` and changes nothing.
      Otherwise the node is moved as `Reprioritise` describes and its new
      1-based position is returned. */
  function ChangePriority<V>(s: State<V>, elementRef: Arg, newPriority: Arg): (r: Step<V, int>)
    requires Valid(s)
    ensures !Issued(s, elementRef) ==> r == Step(s, Err(ReferenceError))
    ensures Issued(s, elementRef) && newPriority.NonNum? ==> r == Step(s, Err(TypeError))
    ensures Issued(s, elementRef) && newPriority.Num? && !Carries(s.queue, elementRef.n) ==> r == Step(s, Ok(-1))
    ensures Issued(s, elementRef) && newPriority.Num? && Carries(s.queue, elementRef.n) ==>
              && Valid(r.after)
              && r.result.Ok? && 0 < r.result.value
              && s.referencesIndexes[elementRef.n].Live?
              && var i := s.referencesIndexes[elementRef.n].index;
                 && i < |s.queue| && s.queue[i].reference == elementRef.n
                 && MovedTo(s, r.after, i, newPriority.n, r.result.value - 1)
  {
    if !Issued(s, elementRef) then Step(s, Err(ReferenceError))
    else if newPriority.NonNum? then Step(s, Err(TypeError))
    else match s.referencesIndexes[elementRef.n]
      case Removed => Step(s, Ok(-1))
      case Live(i) => Reprioritise(s, i, newPriority.n)
  }

  /** What the two halves of `Reprioritise` establish about the states
      after dequeueing (`s2`) and after re-queueing (`t`). */
  ghost predicate ReprioritiseSteps<V>(s: State<V>, i: nat, s2: State<V>, moved: Node<V>, t: State<V>) {
    && Valid(s) && i < |s.queue|
    && moved == s.queue[i].(priority := moved.priority)
    && s2.queue == RemoveAt(s.queue, i)
    && s2.referencesIndexes.Keys == s.referencesIndexes.Keys
    && s2.processedElements == s.processedElements
    && s2.prioritiesNum == Decrease(s.prioritiesNum, s.queue[i].priority)
    && TombstonesKept(s.referencesIndexes, s2.referencesIndexes)
    && InsertedAt(s2, t, moved)
    && Sorted(t.queue) && Consistent(t.queue, t.referencesIndexes)
    && t.referencesIndexes.Keys == s2.referencesIndexes.Keys + {moved.reference}
    && t.processedElements == s2.processedElements
    && t.prioritiesNum == Increase(s2.prioritiesNum, moved.priority)
    && (forall x :: x != moved.reference && x in s2.referencesIndexes && s2.referencesIndexes[x] == Removed ==>
                    t.referencesIndexes[x] == Removed)
  }

  /** `changePriority`, invariant half: removing and re-queueing the node keeps `Valid`. */
  lemma ReprioritiseKeepsValid<V>(s: State<V>, i: nat, s2: State<V>, moved: Node<V>, t: State<V>)
    requires ReprioritiseSteps(s, i, s2, moved, t)
    ensures Valid(t)
  {
    var k := t.referencesIndexes[moved.reference].index;
    TalliesRemove(s.prioritiesNum, s.queue, i);
    TalliesInsert(s2.prioritiesNum, s2.queue, k, moved);
    assert s.queue[i].reference in s.referencesIndexes;
    assert t.referencesIndexes.Keys == s.referencesIndexes.Keys;
  }

  lemma ReprioritiseMoves<V>(s: State<V>, i: nat, s2: State<V>, moved: Node<V>, t: State<V>)
    requires ReprioritiseSteps(s, i, s2, moved, t)
    ensures MovedTo(s, t, i, moved.priority, t.referencesIndexes[moved.reference].index)
  {
    ReprioritiseMovesNode(s, i, s2, moved, t);
    ReprioritiseMovesRecords(s, i, s2, moved, t);
  }

  /** The store half of `ReprioritiseMoves`. */
  lemma ReprioritiseMovesNode<V>(s: State<V>, i: nat, s2: State<V>, moved: Node<V>, t: State<V>)
    requires ReprioritiseSteps(s, i, s2, moved, t)
    ensures var k := t.referencesIndexes[moved.reference].index;
            && i < |s.queue| && k < |t.queue|
            && t.queue[k] == s.queue[i].(priority := moved.priority)
            && RemoveAt(t.queue, k) == RemoveAt(s.queue, i)
            && AfterItsEquals(t.queue, k)
  {
    RemoveInsert(s2.queue, t.referencesIndexes[moved.reference].index, moved);
  }

  /** The index and histogram half of `ReprioritiseMoves`. */
  lemma ReprioritiseMovesRecords<V>(s: State<V>, i: nat, s2: State<V>, moved: Node<V>, t: State<V>)
    requires ReprioritiseSteps(s, i, s2, moved, t)
    ensures && s.queue[i].reference in t.referencesIndexes
            && t.referencesIndexes[s.queue[i].reference] == Live(t.referencesIndexes[moved.reference].index)
            && t.processedElements == s.processedElements
            && t.referencesIndexes.Keys == s.referencesIndexes.Keys
            && (forall x :: CountOf(t.prioritiesNum, x) + (if x == s.queue[i].priority then 1 else 0)
                         == CountOf(s.prioritiesNum, x) + (if x == moved.priority then 1 else 0))
            && TombstonesKept(s.referencesIndexes, t.referencesIndexes)
  {
    assert s.queue[i].reference in s.referencesIndexes;
    TalliesRemove(s.prioritiesNum, s.queue, i);
    MoveCounts(s.prioritiesNum, s.queue[i].priority, moved.priority);
  }

  /** Taking one count from a present priority `a` and adding one to `b`. */
  lemma MoveCounts(h: Counts, a: int, b: int)
    requires CountOf(h, a) > 0
    ensures forall x :: CountOf(Increase(Decrease(h, a), b), x) + (if x == a then 1 else 0)
                     == CountOf(h, x) + (if x == b then 1 else 0)
  {
  }

  /** The insertion index an `InsertedAt` step records is the one
      `findIndexForElement` computes on the store before the insertion. */
  lemma InsertedAtFindIndex<V>(s: State<V>, t: State<V>, n: Node<V>)
    requires InsertedAt(s, t, n)
    ensures t.referencesIndexes[n.reference].index == FindIndex(s.queue, n.priority)
    ensures t.queue == InsertAt(s.queue, FindIndex(s.queue, n.priority), n)
  {
    InsertionIndexUnique(s.queue, t.referencesIndexes[n.reference].index, n);
  }

  /** Likewise for a move: the new index is `findIndexForElement` on the
      store with the moved node taken out. */
  lemma MovedToFindIndex<V>(s: State<V>, t: State<V>, i: nat, p: int, k: nat)
    requires MovedTo(s, t, i, p, k)
    ensures k == FindIndex(RemoveAt(s.queue, i), p)
    ensures t.queue == InsertAt(RemoveAt(s.queue, i), k, s.queue[i].(priority := p))
  {
    InsertRemove(t.queue, k);
    InsertionIndexUnique(RemoveAt(s.queue, i), k, s.queue[i].(priority := p));
  }

  /** `removeByRef(ref)`: `ReferenceError` for a reference never issued,
      `false` for one already removed, otherwise removes its node and
      returns `true`. */
  function RemoveByRef<V>(s: State<V>, elementRef: Arg): (r: Step<V, bool>)
    requires Valid(s)
    ensures !Issued(s, elementRef) ==> r == Step(s, Err(ReferenceError))
    ensures Issued(s, elementRef) && !Carries(s.queue, elementRef.n) ==> r == Step(s, Ok(false))
    ensures Issued(s, elementRef) && Carries(s.queue, elementRef.n) ==>
              && r.result == Ok(true)
              && Valid(r.after)
              && s.referencesIndexes[elementRef.n].Live?
              && var i := s.referencesIndexes[elementRef.n].index;
                 s.queue[i].reference == elementRef.n && RemovedAt(s, r.after, i)
  {
    if !Issued(s, elementRef) then Step(s, Err(ReferenceError))
    else match s.referencesIndexes[elementRef.n]
      case Removed => Step(s, Ok(false))
      case Live(i) => Step(Evict(s, i), Ok(true))
  }

  /** `removeByPosition(position)`: `TypeError` for a non-number, `RangeError`
      for a position <= 0, `false` when `position > length`, otherwise removes
      the node at `position - 1` and returns `true`. */
  function RemoveByPosition<V>(s: State<V>, position: Arg): (r: Step<V, bool>)
    requires Valid(s)
    ensures position.NonNum? ==> r == Step(s, Err(TypeError))
    ensures position.Num? && position.n <= 0 ==> r == Step(s, Err(RangeError))
    ensures position.Num? && position.n > |s.queue| ==> r == Step(s, Ok(false))
    ensures position.Num? && 0 < position.n <= |s.queue| ==>
              r.result == Ok(true) && Valid(r.after) && RemovedAt(s, r.after, position.n - 1)
  {
    if position.NonNum? then Step(s, Err(TypeError))
    else if position.n <= 0 then Step(s, Err(RangeError))
    else if position.n > |s.queue| then Step(s, Ok(false))
    else Step(Evict(s, position.n - 1), Ok(true))
  }

  /** The loop of `clear`: for every node, count its priority once less and
      tombstone its reference. */
  function ClearLoop<V>(q: seq<Node<V>>, h: Counts, idx: Index): (r: (Counts, Index))
    ensures Tallies(h, q) ==> r.0 == map[]
    ensures r.1.Keys == idx.Keys + RefsFrom(q, 0)
    ensures forall x :: x in RefsFrom(q, 0) ==> r.1[x] == Removed
    ensures forall x :: x in idx && x !in RefsFrom(q, 0) ==> r.1[x] == idx[x]
    decreases |q|
  {
    if |q| == 0 then
      TalliesEmptyIf(h, q);
      (h, idx)
    else
      TalliesDrop(h, q);
      assert RefsFrom(q, 0) == {q[0].reference} + RefsFrom(q[1..], 0) by {
        forall x | x in RefsFrom(q, 0) && x != q[0].reference
          ensures x in RefsFrom(q[1..], 0)
        {
          var j :| 0 <= j < |q| && q[j].reference == x;
          assert q[1..][j - 1] == q[j];
        }
      }
      ClearLoop(q[1..], Decrease(h, q[0].priority), idx[q[0].reference := Removed])
  }

  /** `clear`, loop exit: an exact histogram of an empty store is empty. */
  lemma TalliesEmptyIf<V>(h: Counts, q: seq<Node<V>>)
    requires |q| == 0
    ensures Tallies(h, q) ==> h == map[]
  {
    if Tallies(h, q) {
      TalliesEmpty(h, q);
    }
  }

  /** `clear`, loop step: decrementing the first node's priority keeps the histogram exact for the rest. */
  lemma TalliesDrop<V>(h: Counts, q: seq<Node<V>>)
    requires |q| > 0
    ensures Tallies(h, q) ==> Tallies(Decrease(h, q[0].priority), q[1..])
  {
    if Tallies(h, q) {
      TalliesRemove(h, q, 0);
      assert RemoveAt(q, 0) == q[1..];
    }
  }

  /** `clear()`: the store and the histogram are emptied, every issued
      reference is tombstoned, and `processedElements` is kept. */
  function Clear<V>(s: State<V>): (t: State<V>)
    requires Valid(s)
    ensures Valid(t)
    ensures |t.queue| == 0 && t.prioritiesNum == map[]
    ensures t.processedElements == s.processedElements
    ensures t.referencesIndexes.Keys == s.referencesIndexes.Keys
    ensures forall x :: x in t.referencesIndexes ==> t.referencesIndexes[x] == Removed
  {
    var r := ClearLoop(s.queue, s.prioritiesNum, s.referencesIndexes);
    ClearSound(s, r);
    State([], r.0, r.1, s.processedElements)
  }

  /** Every key the loop touches was already issued, so the loop tombstones
      exactly the issued references that were still live. */
  lemma ClearSound<V>(s: State<V>, r: (Counts, Index))
    requires Valid(s) && r.0 == map[]
    requires r.1.Keys == s.referencesIndexes.Keys + RefsFrom(s.queue, 0)
    requires forall x :: x in RefsFrom(s.queue, 0) ==> r.1[x] == Removed
    requires forall x :: x in s.referencesIndexes && x !in RefsFrom(s.queue, 0) ==> r.1[x] == s.referencesIndexes[x]
    ensures r.1.Keys == s.referencesIndexes.Keys
    ensures forall x :: x in r.1 ==> r.1[x] == Removed
    ensures Valid<V>(State([], r.0, r.1, s.processedElements))
  {
    assert RefsFrom(s.queue, 0) <= s.referencesIndexes.Keys;
    forall x | x in r.1
      ensures r.1[x] == Removed
    {
      if x !in RefsFrom(s.queue, 0) {
        RemovedNotCarried(s.queue, s.referencesIndexes, x);
      }
    }
  }

  /** The `(value, position)` pairs `forEach` hands to its callback, in store
      order. The position is read from the reference index, so it is the
      0-based index rather than the 1-based position. */
  function ForEachArgs<V>(s: State<V>): (r: seq<(V, int)>)
    requires Valid(s)
    ensures |r| == |s.queue|
    ensures forall i :: 0 <= i < |r| ==> r[i] == (s.queue[i].value, i)
  {
    seq(|s.queue|, i requires 0 <= i < |s.queue| =>
      (s.queue[i].value, match s.referencesIndexes[s.queue[i].reference]
                         case Live(j) => j
                         case Removed => -1))
  }

  /** `forEach(callbackfn)`: `TypeError` when the callback is not a function,
      otherwise the callback sees the pairs of `ForEachArgs` in order. The
      callback itself is left to the caller; only whether it is a function
      is modelled. */
  function ForEach<V>(s: State<V>, isFunction: bool): (r: Result<seq<(V, int)>>)
    requires Valid(s)
    ensures !isFunction <==> r == Err(TypeError)
    ensures r.Ok? ==> |r.value| == |s.queue| && forall i :: 0 <= i < |s.queue| ==> r.value[i] == (s.queue[i].value, i)
  {
    if !isFunction then Err(TypeError) else Ok(ForEachArgs(s))
  }

  /** The `stats` getter: for each priority present, how many nodes carry
      it; no count is 0 and the counts add up to the length. */
  function Stats<V>(s: State<V>): (r: Counts)
    requires Valid(s)
    ensures forall p :: CountOf(r, p) == Count(s.queue, p)
    ensures forall p :: p in r ==> r[p] > 0
    ensures Total(r) == Length(s)
  {
    TotalIsLength(s.prioritiesNum, s.queue);
    s.prioritiesNum
  }
}

=== FILE: properties.dfy ===
/** Properties that relate several calls of the queue: round trips between
    `positionOf` and `at`, the fate of removed references, FIFO among equal
    priorities, and the invariants every sequence of mutations preserves. */
module QueueProperties {
  import opened Outcomes
  import opened Store
  import opened References
  import opened PriorityQueue

  /** The mutating calls of the public interface. */
  datatype Op<V> =
    | AddOp(element: V, priority: Arg)
    | NextOp
    | ChangePriorityOp(ref: Arg, newPriority: Arg)
    | RemoveByRefOp(ref: Arg)
    | RemoveByPositionOp(position: Arg)
    | ClearOp

  /** The state after one mutating call, whether it returned or threw. */
  function Apply<V>(s: State<V>, op: Op<V>): (t: State<V>)
    requires Valid(s)
    ensures Valid(t)
    ensures t.processedElements >= s.processedElements
    ensures TombstonesKept(s.referencesIndexes, t.referencesIndexes)
  {
    match op
    case AddOp(e, p) => Add(s, e, p).after
    case NextOp => Next(s).after
    case ChangePriorityOp(r, p) => ChangePriority(s, r, p).after
    case RemoveByRefOp(r) => RemoveByRef(s, r).after
    case RemoveByPositionOp(p) => RemoveByPosition(s, p).after
    case ClearOp => Clear(s)
  }

  /** The state after a sequence of mutating calls. Every state reached is
      valid, no reference is ever un-issued, and a tombstone is never lifted. */
  function Run<V>(s: State<V>, ops: seq<Op<V>>): (t: State<V>)
    requires Valid(s)
    ensures Valid(t)
    ensures t.processedElements >= s.processedElements
    ensures TombstonesKept(s.referencesIndexes, t.referencesIndexes)
    decreases |ops|
  {
    if |ops| == 0 then s else Run(Apply(s, ops[0]), ops[1..])
  }

  /** A removed reference answers `-1` to `positionOf` and `changePriority`
      and `false` to `removeByRef` after any later sequence of calls. */
  lemma RemovedStaysRemoved<V>(s: State<V>, ops: seq<Op<V>>, x: int, p: int)
    requires Valid(s) && x in s.referencesIndexes && s.referencesIndexes[x] == Removed
    ensures PositionOf(Run(s, ops), Num(x)) == Ok(-1)
    ensures ChangePriority(Run(s, ops), Num(x), Num(p)).result == Ok(-1)
    ensures RemoveByRef(Run(s, ops), Num(x)).result == Ok(false)
  {
    var t := Run(s, ops);
    RemovedNotCarried(t.queue, t.referencesIndexes, x);
  }

  /** Never-issued and removed references are told apart: the first kind
      throws `ReferenceError` from every reference-taking call, the second
      is answered with `-1` or `false` and never throws. */
  lemma ReferenceDistinction<V>(s: State<V>, x: int, p: int)
    requires Valid(s)
    ensures (x <= 0 || x > TotalProcessed(s)) <==> PositionOf(s, Num(x)) == Err(ReferenceError)
    ensures (x <= 0 || x > TotalProcessed(s)) <==> ChangePriority(s, Num(x), Num(p)).result == Err(ReferenceError)
    ensures (x <= 0 || x > TotalProcessed(s)) <==> RemoveByRef(s, Num(x)).result == Err(ReferenceError)
    ensures x in s.referencesIndexes && s.referencesIndexes[x] == Removed ==>
              && PositionOf(s, Num(x)) == Ok(-1)
              && ChangePriority(s, Num(x), Num(p)) == Step(s, Ok(-1))
              && RemoveByRef(s, Num(x)) == Step(s, Ok(false))
  {
    if x in s.referencesIndexes && s.referencesIndexes[x] == Removed {
      RemovedNotCarried(s.queue, s.referencesIndexes, x);
    }
  }

  /** `removeByRef` on the same reference answers `true`, then `false`, then
      `false` again; it never throws. */
  lemma RemoveByRefTwice<V>(s: State<V>, x: int)
    requires Valid(s) && RemoveByRef(s, Num(x)).result == Ok(true)
    ensures RemoveByRef(RemoveByRef(s, Num(x)).after, Num(x)).result == Ok(false)
    ensures RemoveByRef(RemoveByRef(RemoveByRef(s, Num(x)).after, Num(x)).after, Num(x)).result == Ok(false)
  {
    var t := RemoveByRef(s, Num(x)).after;
    RemovedNotCarried(t.queue, t.referencesIndexes, x);
  }

  /** `next` returns what `front` shows. */
  lemma FrontThenNext<V>(s: State<V>)
    requires Valid(s)
    ensures Next(s).result == Front(s)
  {
  }

  /** For a live reference at position `p` below the length, `at(p)` returns
      that reference and its value; at the last position, `at` reads `null`. */
  lemma PositionRoundTrip<V>(s: State<V>, x: int)
    requires Valid(s) && PositionOf(s, Num(x)).Ok? && PositionOf(s, Num(x)).value != -1
    ensures var p := PositionOf(s, Num(x)).value;
            && (p < Length(s) ==> At(s, Num(p)) == Ok(Some(Entry(x, s.queue[p - 1].value))))
            && (p == Length(s) ==> At(s, Num(p)) == Ok(None))
  {
  }

  /** Conversely, the reference `at(p)` returns is found by `positionOf` at `p`. */
  lemma AtRoundTrip<V>(s: State<V>, p: int)
    requires Valid(s) && At(s, Num(p)).Ok? && At(s, Num(p)).value.Some?
    ensures PositionOf(s, Num(At(s, Num(p)).value.value.ref)) == Ok(p)
  {
    var x := s.queue[p - 1].reference;
    assert s.referencesIndexes[x] == Live(p - 1);
  }

  /** The last occupied position reads as `null` from `at`, yet
      `positionOf` reports the last node there and `removeByPosition`
      accepts it. */
  lemma LastPositionAsymmetry<V>(s: State<V>)
    requires Valid(s) && Length(s) > 0
    ensures At(s, Num(Length(s))) == Ok(None)
    ensures PositionOf(s, Num(s.queue[Length(s) - 1].reference)) == Ok(Length(s))
    ensures RemoveByPosition(s, Num(Length(s))).result == Ok(true)
  {
    assert s.queue[Length(s) - 1].reference in s.referencesIndexes;
  }

  /** `at` as its documentation describes it: `null` only for a position
      higher than the length. */
  function AtIntended<V>(s: State<V>, position: Arg): (r: Result<Option<Entry<V>>>)
    ensures position.NonNum? <==> r == Err(TypeError)
    ensures position.Num? && position.n <= 0 <==> r == Err(RangeError)
    ensures r == Ok(None) <==> position.Num? && position.n > |s.queue|
    ensures position.Num? && position.n != |s.queue| ==> r == At(s, position)
  {
    if position.NonNum? then Err(TypeError)
    else if position.n <= 0 then Err(RangeError)
    else if position.n > |s.queue| then Ok(None)
    else Ok(Some(Entry(s.queue[position.n - 1].reference, s.queue[position.n - 1].value)))
  }

  /** With the documented bound, `at` and `positionOf` are inverse on every
      live reference and every occupied position, the last one included. */
  lemma AtIntendedRoundTrip<V>(s: State<V>, x: int, p: int)
    requires Valid(s)
    ensures PositionOf(s, Num(x)).Ok? && PositionOf(s, Num(x)).value != -1 ==>
              && AtIntended(s, Num(PositionOf(s, Num(x)).value)).Ok?
              && AtIntended(s, Num(PositionOf(s, Num(x)).value)).value.Some?
              && AtIntended(s, Num(PositionOf(s, Num(x)).value)).value.value.ref == x
    ensures 0 < p <= Length(s) ==>
              && AtIntended(s, Num(p)).Ok? && AtIntended(s, Num(p)).value.Some?
              && PositionOf(s, Num(AtIntended(s, Num(p)).value.value.ref)) == Ok(p)
  {
    if 0 < p <= Length(s) {
      assert s.queue[p - 1].reference in s.referencesIndexes;
    }
  }

  /** The position `forEach` hands its callback is one less than the
      position `positionOf` reports for the same element. */
  lemma ForEachOffByOne<V>(s: State<V>, i: nat)
    requires Valid(s) && i < |s.queue|
    ensures PositionOf(s, Num(s.queue[i].reference)) == Ok(ForEachArgs(s)[i].1 + 1)
  {
    assert s.queue[i].reference in s.referencesIndexes;
  }

  /** `forEach` as its documentation describes it: each value with its
      1-based position in the queue. */
  function ForEachIntended<V>(s: State<V>): (r: seq<(V, int)>)
    requires Valid(s)
    ensures |r| == |s.queue|
    ensures forall i :: 0 <= i < |r| ==> r[i].0 == ForEachArgs(s)[i].0
  {
    seq(|s.queue|, i requires 0 <= i < |s.queue| =>
      (s.queue[i].value, match s.referencesIndexes[s.queue[i].reference]
                         case Live(j) => j + 1
                         case Removed => -1))
  }

  /** With the documented positions, every pair agrees with `positionOf`
      and with `at` under the documented bound. */
  lemma ForEachIntendedPositions<V>(s: State<V>, i: nat)
    requires Valid(s) && i < |s.queue|
    ensures PositionOf(s, Num(s.queue[i].reference)) == Ok(ForEachIntended(s)[i].1)
    ensures AtIntended(s, Num(ForEachIntended(s)[i].1)) == Ok(Some(Entry(s.queue[i].reference, ForEachIntended(s)[i].0)))
  {
    assert s.queue[i].reference in s.referencesIndexes;
  }

  /** The reference `add` returns is found by `positionOf` at the new node's
      position, and it is larger than every reference issued before. */
  lemma AddThenPositionOf<V>(s: State<V>, e: V, p: int)
    requires Valid(s)
    ensures var r := Add(s, e, Num(p));
            && r.result.Ok?
            && (forall y :: y in s.referencesIndexes ==> y < r.result.value)
            && PositionOf(r.after, Num(r.result.value)).Ok?
            && var pos := PositionOf(r.after, Num(r.result.value)).value;
               0 < pos <= Length(r.after) && r.after.queue[pos - 1] == Node(p, e, r.result.value)
  {
    var r := Add(s, e, Num(p));
    var k := r.after.referencesIndexes[r.result.value].index;
    assert r.after.queue[k].reference == r.result.value;
  }

  /** For a reference still in the queue, removing by its position and
      removing by the reference itself are the same call. */
  lemma RemoveByPositionOfRef<V>(s: State<V>, x: int)
    requires Valid(s) && PositionOf(s, Num(x)).Ok? && PositionOf(s, Num(x)).value != -1
    ensures RemoveByPosition(s, Num(PositionOf(s, Num(x)).value)) == RemoveByRef(s, Num(x))
  {
    assert s.referencesIndexes[x].Live?;
  }

  /** After `clear`, `front` and `next` throw, every issued reference reads
      `-1`, and the next `add` still issues a fresh reference. */
  lemma ClearThenQueries<V>(s: State<V>, x: int, e: V, p: int)
    requires Valid(s) && 0 < x <= TotalProcessed(s)
    ensures Front(Clear(s)) == Err(Empty) && Next(Clear(s)).result == Err(Empty)
    ensures PositionOf(Clear(s), Num(x)) == Ok(-1)
    ensures Add(Clear(s), e, Num(p)).result == Ok(TotalProcessed(s) + 1)
  {
  }

  /** `add` inserts at the first index whose priority is strictly lower
      than the new one, or at the end when there is none. */
  lemma AddInsertsAtFindIndex<V>(s: State<V>, e: V, p: int, t: State<V>)
    requires Valid(s) && t == Add(s, e, Num(p)).after
    ensures t.referencesIndexes[s.processedElements + 1] == Live(FindIndex(s.queue, p))
    ensures t.queue == InsertAt(s.queue, FindIndex(s.queue, p), Node(p, e, s.processedElements + 1))
  {
    InsertedAtFindIndex(s, t, Node(p, e, s.processedElements + 1));
  }

  /** An `add` whose priority is above the front one lands in front. */
  lemma AddAtFront<V>(s: State<V>, e: V, p: int, t: State<V>)
    requires Valid(s) && (|s.queue| == 0 || s.queue[0].priority < p)
    requires t == Add(s, e, Num(p)).after
    ensures Valid(t) && t.processedElements == s.processedElements + 1
    ensures t.queue == [Node(p, e, s.processedElements + 1)] + s.queue
  {
    AddInsertsAtFindIndex(s, e, p, t);
  }

  /** An `add` whose priority is at most the last one present lands at the back. */
  lemma AddAtBack<V>(s: State<V>, e: V, p: int, t: State<V>)
    requires Valid(s) && (|s.queue| == 0 || s.queue[|s.queue| - 1].priority >= p)
    requires t == Add(s, e, Num(p)).after
    ensures Valid(t) && t.processedElements == s.processedElements + 1
    ensures t.queue == s.queue + [Node(p, e, s.processedElements + 1)]
  {
    FindIndexPastLowest(s.queue, p);
    AddInsertsAtFindIndex(s, e, p, t);
  }

  /** `changePriority` re-inserts at the first index of the remaining store
      whose priority is strictly lower than the new one, and returns that
      index + 1. */
  lemma ChangePriorityInsertsAtFindIndex<V>(s: State<V>, i: nat, p: int, r: Step<V, int>)
    requires Valid(s) && i < |s.queue|
    requires r == ChangePriority(s, Num(s.queue[i].reference), Num(p))
    ensures r.result == Ok(FindIndex(RemoveAt(s.queue, i), p) + 1)
    ensures r.after.queue == InsertAt(RemoveAt(s.queue, i), FindIndex(RemoveAt(s.queue, i), p), s.queue[i].(priority := p))
  {
    ChangePriorityMoves(s, i, p, r);
    MovedToFindIndex(s, r.after, i, p, r.result.value - 1);
  }

  lemma ChangePriorityMoves<V>(s: State<V>, i: nat, p: int, r: Step<V, int>)
    requires Valid(s) && i < |s.queue|
    requires r == ChangePriority(s, Num(s.queue[i].reference), Num(p))
    ensures r.result.Ok? && 0 < r.result.value && MovedTo(s, r.after, i, p, r.result.value - 1)
  {
    assert s.referencesIndexes[s.queue[i].reference] == Live(i);
  }

  /** The position `changePriority` returns is the one `positionOf` reports
      afterwards. */
  lemma ChangePriorityThenPositionOf<V>(s: State<V>, x: int, p: int, r: Step<V, int>)
    requires Valid(s) && r == ChangePriority(s, Num(x), Num(p)) && r.result.Ok?
    ensures PositionOf(r.after, Num(x)) == r.result
  {
    if Carries(s.queue, x) {
      var i := s.referencesIndexes[x].index;
      assert s.queue[i].reference == x;
      ChangePriorityMoves(s, i, p, r);
      PositionAfterMove(s, r, i, p);
    } else {
      assert r.after == s;
    }
  }

  /** After a move, `positionOf` finds the node at the position the move returned. */
  lemma PositionAfterMove<V>(s: State<V>, r: Step<V, int>, i: nat, p: int)
    requires Valid(s) && Valid(r.after) && i < |s.queue|
    requires r.result.Ok? && 0 < r.result.value && MovedTo(s, r.after, i, p, r.result.value - 1)
    ensures PositionOf(r.after, Num(s.queue[i].reference)) == r.result
  {
    assert s.queue[i].reference in s.referencesIndexes;
  }

  /** Among equal priorities, nodes appear in the order their references were
      issued. */
  ghost predicate Fifo<V>(q: seq<Node<V>>) {
    forall i, j :: 0 <= i < j < |q| && q[i].priority == q[j].priority ==> q[i].reference < q[j].reference
  }

  /** `add` keeps equal priorities in issue order: the new reference is the
      largest so far and lands behind every node of equal priority. */
  lemma AddKeepsFifo<V>(s: State<V>, e: V, p: Arg)
    requires Valid(s) && Fifo(s.queue)
    ensures Fifo(Add(s, e, p).after.queue)
  {
    if p.Num? {
      InsertedKeepsFifo(s, Add(s, e, p).after, Node(p.n, e, s.processedElements + 1));
    }
  }

  lemma InsertedKeepsFifo<V>(s: State<V>, t: State<V>, n: Node<V>)
    requires Valid(s) && Fifo(s.queue) && InsertedAt(s, t, n) && n.reference == s.processedElements + 1
    ensures Fifo(t.queue)
  {
    forall i | 0 <= i < |s.queue|
      ensures s.queue[i].reference < n.reference
    {
      assert s.queue[i].reference in s.referencesIndexes;
    }
    InsertKeepsFifo(s.queue, t.referencesIndexes[n.reference].index, n);
  }

  /** A node whose reference exceeds every other, placed behind its equals,
      keeps equal priorities in issue order. */
  lemma InsertKeepsFifo<V>(q: seq<Node<V>>, k: nat, n: Node<V>)
    requires k <= |q| && Fifo(q) && AfterItsEquals(InsertAt(q, k, n), k)
    requires forall i :: 0 <= i < |q| ==> q[i].reference < n.reference
    ensures Fifo(InsertAt(q, k, n))
  {
    var r := InsertAt(q, k, n);
    forall i, j | 0 <= i < j < |r| && r[i].priority == r[j].priority
      ensures r[i].reference < r[j].reference
    {
      if j == k {
        assert r[i] == q[i];
      } else if i == k {
        assert false;
      } else {
        var i' := if i < k then i else i - 1;
        var j' := if j < k then j else j - 1;
        assert r[i] == q[i'] && r[j] == q[j'];
      }
    }
  }

  /** Removing a node keeps the others in issue order. */
  lemma RemoveKeepsFifo<V>(q: seq<Node<V>>, i: nat)
    requires i < |q| && Fifo(q)
    ensures Fifo(RemoveAt(q, i))
  {
    var r := RemoveAt(q, i);
    forall a, b | 0 <= a < b < |r| && r[a].priority == r[b].priority
      ensures r[a].reference < r[b].reference
    {
      var a' := if a < i then a else a + 1;
      var b' := if b < i then b else b + 1;
      assert r[a] == q[a'] && r[b] == q[b'];
    }
  }

  /** No call in `ops` re-prioritises a node. */
  predicate NoReprioritise<V>(ops: seq<Op<V>>) {
    forall i :: 0 <= i < |ops| ==> !ops[i].ChangePriorityOp?
  }

  /** Without re-prioritisation, every sequence of calls keeps equal
      priorities in issue order, so `front` is always the earliest-added of
      the highest-priority elements. */
  lemma {:induction false} RunKeepsFifo<V>(s: State<V>, ops: seq<Op<V>>)
    requires Valid(s) && Fifo(s.queue) && NoReprioritise(ops)
    ensures Fifo(Run(s, ops).queue)
    decreases |ops|
  {
    if |ops| > 0 {
      ApplyKeepsFifo(s, ops[0]);
      assert NoReprioritise(ops[1..]) by {
        forall i | 0 <= i < |ops[1..]|
          ensures !ops[1..][i].ChangePriorityOp?
        {
          assert ops[1..][i] == ops[i + 1];
        }
      }
      RunKeepsFifo(Apply(s, ops[0]), ops[1..]);
    }
  }

  /** One call other than `changePriority` keeps equal priorities in issue order. */
  lemma ApplyKeepsFifo<V>(s: State<V>, op: Op<V>)
    requires Valid(s) && Fifo(s.queue) && !op.ChangePriorityOp?
    ensures Fifo(Apply(s, op).queue)
  {
    match op
    case AddOp(e, p) => AddKeepsFifo(s, e, p);
    case NextOp => NextKeepsFifo(s, Next(s).after);
    case RemoveByRefOp(r) => RemoveByRefKeepsFifo(s, r, RemoveByRef(s, r).after);
    case RemoveByPositionOp(p) => RemoveByPositionKeepsFifo(s, p, RemoveByPosition(s, p).after);
    case ClearOp =>
  }

  lemma NextKeepsFifo<V>(s: State<V>, t: State<V>)
    requires Valid(s) && Fifo(s.queue) && t == Next(s).after
    ensures Fifo(t.queue)
  {
    if |s.queue| > 0 {
      RemovedKeepsFifo(s, t, 0);
    }
  }

  lemma RemovedKeepsFifo<V>(s: State<V>, t: State<V>, i: nat)
    requires Fifo(s.queue) && RemovedAt(s, t, i)
    ensures Fifo(t.queue)
  {
    RemoveKeepsFifo(s.queue, i);
  }

  lemma RemoveByRefKeepsFifo<V>(s: State<V>, r: Arg, t: State<V>)
    requires Valid(s) && Fifo(s.queue) && t == RemoveByRef(s, r).after
    ensures Fifo(t.queue)
  {
    if Issued(s, r) && Carries(s.queue, r.n) {
      RemovedKeepsFifo(s, t, s.referencesIndexes[r.n].index);
    }
  }

  lemma RemoveByPositionKeepsFifo<V>(s: State<V>, p: Arg, t: State<V>)
    requires Valid(s) && Fifo(s.queue) && t == RemoveByPosition(s, p).after
    ensures Fifo(t.queue)
  {
    if p.Num? && 0 < p.n <= |s.queue| {
      RemovedKeepsFifo(s, t, p.n - 1);
    }
  }

  /** Under issue order among equals, the front node has the highest priority
      and, among nodes of that priority, the smallest reference. */
  lemma FrontIsEarliestOfHighest<V>(s: State<V>)
    requires Valid(s) && Fifo(s.queue) && Length(s) > 0
    ensures forall i :: 0 < i < |s.queue| ==>
              || s.queue[i].priority < s.queue[0].priority
              || (s.queue[i].priority == s.queue[0].priority && s.queue[0].reference < s.queue[i].reference)
  {
  }
}

=== FILE: references.dfy ===
/** The reference index `referencesIndexes`: every issued reference maps to
    the current index of its node, or to a tombstone once the node is gone. */
module References {
  import opened Store

  /** `Live(i)` is index `i` of the store; `Removed` stands for the source's `-1`. */
  datatype Slot = Live(index: nat) | Removed

  type Index = map<int, Slot>

  /** References carried by the nodes at index `k` and later. */
  ghost function RefsFrom<V>(q: seq<Node<V>>, k: nat): set<int>
    requires k <= |q|
  {
    set j | k <= j < |q| :: q[j].reference
  }

  /** The loop shared by `dequeueElement` and `queueElement`: every node at
      index `k` or later has its slot overwritten with its current index;
      every other slot is left as it was. */
  function Reindex<V>(q: seq<Node<V>>, idx: Index, k: nat): (r: Index)
    requires k <= |q| && DistinctRefs(q)
    ensures r.Keys == idx.Keys + RefsFrom(q, k)
    ensures forall j :: k <= j < |q| ==> r[q[j].reference] == Live(j)
    ensures forall x :: x in idx && x !in RefsFrom(q, k) ==> r[x] == idx[x]
    decreases |q| - k
  {
    if k == |q| then idx
    else
      assert RefsFrom(q, k) == {q[k].reference} + RefsFrom(q, k + 1);
      Reindex(q, idx[q[k].reference := Live(k)], k + 1)
  }

  /** Every node's slot holds the node's own index. */
  ghost predicate Placed<V>(q: seq<Node<V>>, idx: Index) {
    forall i :: 0 <= i < |q| ==> q[i].reference in idx && idx[q[i].reference] == Live(i)
  }

  /** Index and store agree both ways: every node is found at its slot, and
      every live slot points at a node carrying that reference. */
  ghost predicate Consistent<V>(q: seq<Node<V>>, idx: Index) {
    && Placed(q, idx)
    && forall x :: x in idx && idx[x].Live? ==> idx[x].index < |q| && q[idx[x].index].reference == x
  }

  /** `Consistent`, except that the slot of `z` may still hold a stale index
      (the state between splicing a node out and writing its new slot). */
  ghost predicate ConsistentBut<V>(q: seq<Node<V>>, idx: Index, z: int) {
    && Placed(q, idx)
    && forall x :: x != z && x in idx && idx[x].Live? ==> idx[x].index < |q| && q[idx[x].index].reference == x
  }

  /** Slots that are `Removed` in `idx` are still `Removed` in `idx'`. */
  ghost predicate TombstonesKept(idx: Index, idx': Index) {
    forall x :: x in idx && idx[x] == Removed ==> x in idx' && idx'[x] == Removed
  }

  /** A placed store never carries a reference twice. */
  lemma PlacedDistinct<V>(q: seq<Node<V>>, idx: Index)
    requires Placed(q, idx)
    ensures DistinctRefs(q)
  {
    forall i, j | 0 <= i < j < |q|
      ensures q[i].reference != q[j].reference
    {
      assert idx[q[i].reference] == Live(i) && idx[q[j].reference] == Live(j);
    }
  }

  /** A tombstoned reference is carried by no node. */
  lemma RemovedNotCarried<V>(q: seq<Node<V>>, idx: Index, x: int)
    requires Placed(q, idx) && x in idx && idx[x] == Removed
    ensures !Carries(q, x)
  {
  }

  /** In a store without shared references, no reference carried before
      index `k` occurs again from `k` on, so the rewrite loop started at `k`
      (after a removal or an insertion) leaves the slots of earlier nodes alone. */
  lemma PrefixUntouched<V>(q': seq<Node<V>>, k: nat)
    requires k <= |q'| && DistinctRefs(q')
    ensures forall i :: 0 <= i < k ==> q'[i].reference !in RefsFrom(q', k)
  {
    forall i | 0 <= i < k
      ensures q'[i].reference !in RefsFrom(q', k)
    {
      assert forall j :: k <= j < |q'| ==> q'[j].reference != q'[i].reference;
    }
  }

  /** `dequeueElement` at index `k` re-establishes the index for every node
      still in the store; only the removed node's slot is left stale. */
  lemma DequeueReindex<V>(q: seq<Node<V>>, idx: Index, k: nat)
    requires k < |q| && Consistent(q, idx)
    ensures DistinctRefs(RemoveAt(q, k))
    ensures !Carries(RemoveAt(q, k), q[k].reference)
    ensures Reindex(RemoveAt(q, k), idx, k).Keys == idx.Keys
    ensures ConsistentBut(RemoveAt(q, k), Reindex(RemoveAt(q, k), idx, k), q[k].reference)
    ensures TombstonesKept(idx, Reindex(RemoveAt(q, k), idx, k))
  {
    PlacedDistinct(q, idx);
    RemoveKeepsOrder(q, k);
    var q' := RemoveAt(q, k);
    var r := Reindex(q', idx, k);
    DequeueKeys(q, idx, k, q', r);
    DequeuePlaced(q, idx, k, q', r);
    DequeueBacked(q, idx, k, q', r);
    DequeueTombstones(q, idx, k, q', r);
  }

  /** `dequeueElement`, keys half: the rewrite loop issues no new reference. */
  lemma DequeueKeys<V>(q: seq<Node<V>>, idx: Index, k: nat, q': seq<Node<V>>, r: Index)
    requires k < |q| && Placed(q, idx)
    requires q' == RemoveAt(q, k) && DistinctRefs(q') && r == Reindex(q', idx, k)
    ensures r.Keys == idx.Keys
  {
    forall x | x in RefsFrom(q', k)
      ensures x in idx
    {
      var j :| k <= j < |q'| && q'[j].reference == x;
      assert q[j + 1].reference == x;
    }
  }

  /** `dequeueElement`, placement half: every remaining node's slot holds its new index. */
  lemma DequeuePlaced<V>(q: seq<Node<V>>, idx: Index, k: nat, q': seq<Node<V>>, r: Index)
    requires k < |q| && Placed(q, idx)
    requires q' == RemoveAt(q, k) && DistinctRefs(q') && r == Reindex(q', idx, k)
    ensures Placed(q', r)
  {
    PrefixUntouched(q', k);
    forall i | 0 <= i < k
      ensures q'[i].reference in r && r[q'[i].reference] == Live(i)
    {
      assert q'[i] == q[i];
    }
  }

  /** `dequeueElement`, backing half: every live slot but the removed node's points at a node carrying it. */
  lemma DequeueBacked<V>(q: seq<Node<V>>, idx: Index, k: nat, q': seq<Node<V>>, r: Index)
    requires k < |q| && Consistent(q, idx)
    requires q' == RemoveAt(q, k) && DistinctRefs(q') && r == Reindex(q', idx, k)
    ensures forall x :: x != q[k].reference && x in r && r[x].Live? ==> r[x].index < |q'| && q'[r[x].index].reference == x
  {
    forall j | k < j < |q|
      ensures q[j].reference in RefsFrom(q', k)
    {
      assert q'[j - 1] == q[j];
    }
    forall x | x != q[k].reference && x in r && r[x].Live?
      ensures r[x].index < |q'| && q'[r[x].index].reference == x
    {
      if x in RefsFrom(q', k) {
        var j :| k <= j < |q'| && q'[j].reference == x;
        assert r[x] == Live(j);
      } else {
        var i := idx[x].index;
        assert q[i].reference == x;
        assert q'[i] == q[i];
      }
    }
  }

  /** `dequeueElement`, tombstone half: the rewrite loop never overwrites a -1 slot. */
  lemma DequeueTombstones<V>(q: seq<Node<V>>, idx: Index, k: nat, q': seq<Node<V>>, r: Index)
    requires k < |q| && Placed(q, idx)
    requires q' == RemoveAt(q, k) && DistinctRefs(q') && r == Reindex(q', idx, k)
    ensures TombstonesKept(idx, r)
  {
    forall j | k <= j < |q'|
      ensures idx[q'[j].reference].Live?
    {
      assert q'[j] == q[j + 1];
    }
  }

  /** `queueElement` at index `k` makes the index consistent again, the
      inserted node's slot included. */
  lemma QueueReindex<V>(q: seq<Node<V>>, idx: Index, k: nat, n: Node<V>)
    requires k <= |q| && ConsistentBut(q, idx, n.reference) && !Carries(q, n.reference)
    ensures DistinctRefs(InsertAt(q, k, n))
    ensures Reindex(InsertAt(q, k, n), idx, k).Keys == idx.Keys + {n.reference}
    ensures Consistent(InsertAt(q, k, n), Reindex(InsertAt(q, k, n), idx, k))
    ensures forall x :: x != n.reference && x in idx && idx[x] == Removed ==> Reindex(InsertAt(q, k, n), idx, k)[x] == Removed
  {
    PlacedDistinct(q, idx);
    InsertKeepsDistinct(q, k, n);
    var q' := InsertAt(q, k, n);
    var r := Reindex(q', idx, k);
    QueueKeys(q, idx, k, n, q', r);
    QueuePlaced(q, idx, k, n, q', r);
    QueueBacked(q, idx, k, n, q', r);
    QueueTombstones(q, idx, k, n, q', r);
  }

  /** `queueElement`, keys half: the only reference added is the inserted node's. */
  lemma QueueKeys<V>(q: seq<Node<V>>, idx: Index, k: nat, n: Node<V>, q': seq<Node<V>>, r: Index)
    requires k <= |q| && Placed(q, idx)
    requires q' == InsertAt(q, k, n) && DistinctRefs(q') && r == Reindex(q', idx, k)
    ensures r.Keys == idx.Keys + {n.reference}
  {
    assert n.reference in RefsFrom(q', k) by {
      assert q'[k] == n;
    }
    forall x | x in RefsFrom(q', k)
      ensures x in idx.Keys + {n.reference}
    {
      var j :| k <= j < |q'| && q'[j].reference == x;
      if j > k {
        assert q[j - 1].reference == x;
      }
    }
  }

  /** `queueElement`, placement half: every node's slot, the inserted one's included, holds its index. */
  lemma QueuePlaced<V>(q: seq<Node<V>>, idx: Index, k: nat, n: Node<V>, q': seq<Node<V>>, r: Index)
    requires k <= |q| && Placed(q, idx)
    requires q' == InsertAt(q, k, n) && DistinctRefs(q') && r == Reindex(q', idx, k)
    ensures Placed(q', r)
  {
    PrefixUntouched(q', k);
    forall i | 0 <= i < k
      ensures q'[i].reference in r && r[q'[i].reference] == Live(i)
    {
      assert q'[i] == q[i];
    }
  }

  /** `queueElement`, backing half: every live slot points at a node carrying it. */
  lemma QueueBacked<V>(q: seq<Node<V>>, idx: Index, k: nat, n: Node<V>, q': seq<Node<V>>, r: Index)
    requires k <= |q| && ConsistentBut(q, idx, n.reference)
    requires q' == InsertAt(q, k, n) && DistinctRefs(q') && r == Reindex(q', idx, k)
    ensures forall x :: x in r && r[x].Live? ==> r[x].index < |q'| && q'[r[x].index].reference == x
  {
    forall j | k <= j < |q|
      ensures q[j].reference in RefsFrom(q', k)
    {
      assert q'[j + 1] == q[j];
    }
    assert n.reference in RefsFrom(q', k) by {
      assert q'[k] == n;
    }
    forall x | x in r && r[x].Live?
      ensures r[x].index < |q'| && q'[r[x].index].reference == x
    {
      if x in RefsFrom(q', k) {
        var j :| k <= j < |q'| && q'[j].reference == x;
        assert r[x] == Live(j);
      } else {
        var i := idx[x].index;
        assert q[i].reference == x;
        assert q'[i] == q[i];
      }
    }
  }

  /** `queueElement`, tombstone half: the rewrite loop never overwrites another -1 slot. */
  lemma QueueTombstones<V>(q: seq<Node<V>>, idx: Index, k: nat, n: Node<V>, q': seq<Node<V>>, r: Index)
    requires k <= |q| && Placed(q, idx)
    requires q' == InsertAt(q, k, n) && DistinctRefs(q') && r == Reindex(q', idx, k)
    ensures forall x :: x != n.reference && x in idx && idx[x] == Removed ==> r[x] == Removed
  {
    forall j | k < j < |q'|
      ensures idx[q'[j].reference].Live?
    {
      assert q'[j] == q[j - 1];
    }
  }

  /** Writing the tombstone of a reference no node carries completes a removal. */
  lemma Tombstone<V>(q: seq<Node<V>>, idx: Index, z: int)
    requires ConsistentBut(q, idx, z) && !Carries(q, z)
    ensures Consistent(q, idx[z := Removed])
  {
  }
}

=== FILE: store.dfy ===
/** The ordered store: the `queue` array of nodes, kept in non-increasing
    priority order, and the splice operations that shift it. */
module Store {

  /** One queued element (`PriorityNode`): its priority, the caller's opaque
      payload and the reference `add` issued for it. */
  datatype Node<V> = Node(priority: int, value: V, reference: int)

  /** Non-increasing priority order: whatever is at index 0 is served next. */
  ghost predicate Sorted<V>(q: seq<Node<V>>) {
    forall i, j :: 0 <= i < j < |q| ==> q[i].priority >= q[j].priority
  }

  /** No reference is carried by two nodes. */
  ghost predicate DistinctRefs<V>(q: seq<Node<V>>) {
    forall i, j :: 0 <= i < j < |q| ==> q[i].reference != q[j].reference
  }

  /** Some node of `q` carries reference `x`. */
  ghost predicate Carries<V>(q: seq<Node<V>>, x: int) {
    exists i :: 0 <= i < |q| && q[i].reference == x
  }

  /** The node at index `k` sits behind every node of equal or higher priority
      and ahead of every node of strictly lower priority (FIFO among equals). */
  ghost predicate AfterItsEquals<V>(q: seq<Node<V>>, k: nat)
    requires k < |q|
  {
    && (forall i :: 0 <= i < k ==> q[i].priority >= q[k].priority)
    && (forall i :: k < i < |q| ==> q[i].priority < q[k].priority)
  }

  /** `queue.splice(k, 0, n)`: later nodes move one index up. */
  function InsertAt<V>(q: seq<Node<V>>, k: nat, n: Node<V>): (r: seq<Node<V>>)
    requires k <= |q|
    ensures |r| == |q| + 1 && r[k] == n
    ensures forall i :: 0 <= i < k ==> r[i] == q[i]
    ensures forall i :: k < i < |r| ==> r[i] == q[i - 1]
  {
    q[..k] + [n] + q[k..]
  }

  /** `queue.splice(k, 1)`: later nodes move one index down. */
  function RemoveAt<V>(q: seq<Node<V>>, k: nat): (r: seq<Node<V>>)
    requires k < |q|
    ensures |r| == |q| - 1
    ensures forall i :: 0 <= i < k ==> r[i] == q[i]
    ensures forall i :: k <= i < |r| ==> r[i] == q[i + 1]
  {
    q[..k] + q[k + 1..]
  }

  /** Removing what was just inserted at the same index gives back the store. */
  lemma RemoveInsert<V>(q: seq<Node<V>>, k: nat, n: Node<V>)
    requires k <= |q|
    ensures RemoveAt(InsertAt(q, k, n), k) == q
  {
    var r := RemoveAt(InsertAt(q, k, n), k);
    assert forall i :: 0 <= i < |q| ==> r[i] == q[i];
  }

  /** Inserting at an index and then splicing out the node now at index `k`
      restores the store; used to relate the store before and after a
      re-prioritisation. */
  lemma InsertRemove<V>(q: seq<Node<V>>, k: nat)
    requires k < |q|
    ensures InsertAt(RemoveAt(q, k), k, q[k]) == q
  {
    var r := InsertAt(RemoveAt(q, k), k, q[k]);
    assert forall i :: 0 <= i < |q| ==> r[i] == q[i];
  }

  /** `findIndexForElement`: the first index whose priority is strictly
      lower than `p`, or the length when there is none. */
  function FindIndex<V>(q: seq<Node<V>>, p: int): (k: nat)
    ensures k <= |q|
    ensures forall i :: 0 <= i < k ==> q[i].priority >= p
    ensures k < |q| ==> q[k].priority < p
  {
    ScanFrom(q, p, 0)
  }

  /** The scanning loop of `findIndexForElement`, resumed at index `i` once
      every earlier node is known to have priority `p` or higher. */
  function ScanFrom<V>(q: seq<Node<V>>, p: int, i: nat): (k: nat)
    requires i <= |q|
    requires forall j :: 0 <= j < i ==> q[j].priority >= p
    ensures i <= k <= |q|
    ensures forall j :: 0 <= j < k ==> q[j].priority >= p
    ensures k < |q| ==> q[k].priority < p
    decreases |q| - i
  {
    if i == |q| || q[i].priority < p then i else ScanFrom(q, p, i + 1)
  }

  /** In a sorted store, a priority no higher than the last one present
      goes to the end, behind every node. */
  lemma FindIndexPastLowest<V>(q: seq<Node<V>>, p: int)
    requires Sorted(q) && (|q| == 0 || q[|q| - 1].priority >= p)
    ensures FindIndex(q, p) == |q|
  {
    if |q| > 0 {
      assert forall i :: 0 <= i < |q| ==> q[i].priority >= q[|q| - 1].priority;
    }
  }

  /** Inserting at `FindIndex` keeps the store sorted and places the new node
      behind all nodes of equal priority. */
  lemma InsertKeepsSorted<V>(q: seq<Node<V>>, k: nat, n: Node<V>)
    requires Sorted(q)
    requires k == FindIndex(q, n.priority)
    ensures Sorted(InsertAt(q, k, n))
    ensures AfterItsEquals(InsertAt(q, k, n), k)
  {
    var r := InsertAt(q, k, n);
    forall i | k < i < |r|
      ensures r[i].priority < n.priority
    {
      assert r[i] == q[i - 1] && q[k].priority < n.priority;
    }
    forall i, j | 0 <= i < j < |r|
      ensures r[i].priority >= r[j].priority
    {
      if j < k {
        assert r[i] == q[i] && r[j] == q[j];
      } else if j == k {
        assert r[i] == q[i];
      } else if i < k {
        assert r[i] == q[i];
      } else if i > k {
        assert r[i] == q[i - 1] && r[j] == q[j - 1];
      }
    }
  }

  /** The index that puts a node behind its equals and ahead of every lower
      priority is unique: it is the index `FindIndex` returns. */
  lemma InsertionIndexUnique<V>(q: seq<Node<V>>, k: nat, n: Node<V>)
    requires k <= |q| && AfterItsEquals(InsertAt(q, k, n), k)
    ensures k == FindIndex(q, n.priority)
  {
    var r := InsertAt(q, k, n);
    forall i | 0 <= i < k
      ensures q[i].priority >= n.priority
    {
      assert r[i] == q[i];
    }
    forall i | k <= i < |q|
      ensures q[i].priority < n.priority
    {
      assert r[i + 1] == q[i];
    }
    assert k < |q| ==> q[k].priority < n.priority;
    var f := FindIndex(q, n.priority);
    assert f < |q| ==> q[f].priority < n.priority;
  }

  /** Splicing a node out keeps the order and the distinctness of references. */
  lemma RemoveKeepsOrder<V>(q: seq<Node<V>>, k: nat)
    requires k < |q|
    ensures Sorted(q) ==> Sorted(RemoveAt(q, k))
    ensures DistinctRefs(q) ==> DistinctRefs(RemoveAt(q, k))
    ensures DistinctRefs(q) ==> !Carries(RemoveAt(q, k), q[k].reference)
  {
  }

  /** A node whose reference is not yet in the store keeps references distinct. */
  lemma InsertKeepsDistinct<V>(q: seq<Node<V>>, k: nat, n: Node<V>)
    requires k <= |q|
    requires DistinctRefs(q) && !Carries(q, n.reference)
    ensures DistinctRefs(InsertAt(q, k, n))
  {
    var r := InsertAt(q, k, n);
    forall i, j | 0 <= i < j < |r|
      ensures r[i].reference != r[j].reference
    {
      if i == k {
        assert r[j] == q[j - 1];
      } else if j == k {
        assert r[i] == q[i];
      }
    }
  }
}
